=== FILE: README.md ===
# NMK intern management: a Dafny model

This project models the core of the NMK Student Internship System, an Express and Mongoose server with a React client. It covers four parts:

- **Magic-link login.** A department requests a one-time login link. The link is exchanged for a session held in an http-only cookie. The session is then resolved from the cookie, and it ends on logout (`server.js`).
- **Intern record service.** Interns are created, listed, updated, given a status, deleted and commented on. The records are keyed by their unique `idNumber` (`server.js`).
- **Schemas.** The User and Intern documents have required paths, enums, defaults and e-mail normalisation (`Models/user.js`, `Models/interns.js`).
- **Client list logic.** This covers the filtered and sorted intern table, the sort toggle, the department choices, the report preview, which row buttons appear, and where a login lands (`public/index.js`).

Every request handler is a pure transition. It takes the collection plus the request, and returns the new collection plus the reply.

- **Users** are a sequence in the database's natural order. Every user lookup, by `findOne` or `findOneAndUpdate`, takes the first match in that order, and the model keeps that choice visible. The `updateMany` of a stale link touches every match.
- **Interns** are a map from `idNumber` to record.
- **Parameters.** The clock (`now`, in milliseconds) and freshly generated tokens are passed in, and so is whether the mail was delivered.

Modules:

| file | module | what it holds |
|---|---|---|
| results.dfy | Results | `Option`, `Result`, JavaScript truthiness of strings and body fields |
| text.dfy | Text | ASCII `toLowerCase`, ECMAScript `trim`, `includes`, string `<` |
| seqs.dfy | Seqs | `filter`, `findOne` (first match), `new Set` (first occurrences), subsequences |
| sorting.dfy | Sorting | the stable `Array.prototype.sort` with a string-key comparator |
| user_schema.dfy | UserSchema | the User document, e-mail normalisation, the unique e-mail index |
| intern_schema.dfy | InternSchema | the Intern and Comment documents, validation and defaults |
| auth.dfy | Auth | request link, verify link, check session, logout |
| auth_properties.dfy | AuthProperties | well-formedness, single use, expiry, replacement, logout |
| records.dfy | Records | create, list, update, status, delete, comment |
| record_properties.dfy | RecordProperties | validity preservation, append-only merges, scenarios |
| intern_list.dfy | InternList | the client's table, sort, department choices, report, buttons, landing |
| interplay.dfy | Interplay | client buttons and landing pages against the server transitions |
| persistence.dfy | Persistence | what strict mode keeps of a record (see Findings) |

Some behaviours of the code are easy to miss:

- **Updates can change the id.** An update body's `idNumber` is written like any other path. The record therefore moves to the new id, and an id held by another record is refused by the unique index. The handler reports that refusal as a 500.
- **Duplicate ids give 500.** Creating a record whose id is already taken is a duplicate-key error, not a validation error, so the handler answers 500 rather than a conflict status.
- **Update validation comes before the lookup.** The update validators run as part of the query. An update of an unknown id that sends an empty path or a status outside the enum is therefore a 400, not a 404. For an unknown id the handler has already replaced the comment list by `[]`, so invalid comments alone give a 404. For a known id without a comment list the handler copies the stored comments into the update, and the validators check them again. The status patch also checks its enum before looking the record up.
- **Audit e-mails are handler writes.** The handlers write `addedByStaffEmail`, `updatedByStaffEmail`, `statusChangedByHREmail` and a comment's `authorEmail`. The schemas do not declare them, and Mongoose's strict mode drops undeclared paths on save. `Records` models the store the handlers intend, with the audit e-mails kept. `Persistence.StrictRecord` models what Mongoose actually saves (see Findings).

## Model

| member | source | states |
|---|---|---|
| Results.Lookup | server.js:157 | a body entry is present exactly when the key was sent, and then carries the sent value |
| Text.Lower | Models/user.js:4 | lower-casing keeps the length and leaves no upper-case letter |
| Text.LowerIdempotent | Models/user.js:4 | lower-casing twice is lower-casing once |
| Text.Trim | Models/user.js:4 | the result is no longer than the input and has no white space at either end |
| Text.TrimOfTrimmed | Models/user.js:4 | a string without white space at either end is its own trim |
| Text.TrimLeadingSpace | Models/user.js:4 | a leading white-space character does not change the trim |
| Text.TrimTrailingSpace | Models/user.js:4 | a trailing white-space character does not change the trim |
| Text.TrimIdempotent | Models/user.js:4 | trimming twice is trimming once |
| Text.LowerTrimCommute | Models/user.js:4 | lower-casing and trimming can be applied in either order |
| Text.Contains | public/index.js:915 | `includes` holds exactly when the needle occurs at some position |
| Text.LexLessIrreflexive | public/index.js:925 | no string is less than itself |
| Text.LexLessTransitive | public/index.js:925 | string `<` is transitive |
| Text.LexLessTotal | public/index.js:925 | of two distinct strings one is less than the other |
| Seqs.Filter | public/index.js:900 | the result keeps exactly the elements satisfying the predicate, in their order |
| Seqs.FindFirst | server.js:166 | the index found is the first satisfying one; none is found exactly when no element satisfies |
| Seqs.Dedup | public/index.js:885 | the same elements without duplicates, at their first occurrence |
| Seqs.DedupFirstOccurrenceOrder | public/index.js:885 | the distinct elements come in the order of their first occurrences, as a `Set` iterates in insertion order |
| Seqs.FilterMultiplicity | public/index.js:900 | each element satisfying the predicate is kept exactly as often as it occurs, and no other element is kept |
| Seqs.FilterAtMostOne | public/index.js:1173 | if at most one element satisfies the predicate, the filter keeps at most one |
| Seqs.NoDupPermutation | public/index.js:885 | a rearrangement of a duplicate-free list has no duplicates |
| Sorting.Insert | public/index.js:921-932 | inserting into a sorted list keeps it sorted and adds exactly the element |
| Sorting.SortBy | public/index.js:921-932 | the result is sorted by the key in the chosen direction and is a permutation of the input |
| Sorting.SortStable | public/index.js:921-932 | elements with equal keys keep their relative order |
| UserSchema.ParseRole | Models/user.js:5 | a role is accepted exactly when it spells Staff or HR |
| UserSchema.NormalizeEmail | Models/user.js:4 | a stored e-mail has no upper-case letter and no white space at either end |
| UserSchema.NormalizeEmailKeepsNormal | Models/user.js:4 | an e-mail with no upper-case letter and no white space at either end is stored unchanged |
| UserSchema.NormalizeEmailIdempotent | Models/user.js:4 | normalising a stored e-mail changes nothing |
| UserSchema.NormalizeEmailIgnoresCase | Models/user.js:4 | e-mails differing only in letter case normalise alike |
| UserSchema.NormalizeEmailIgnoresLeadingSpace | Models/user.js:4 | a leading white-space character does not change the normalised e-mail |
| UserSchema.NormalizeEmailIgnoresTrailingSpace | Models/user.js:4 | a trailing white-space character does not change the normalised e-mail |
| UserSchema.NewUser | Models/user.js:3-15 | a user is built exactly when the e-mail is non-empty after normalisation, the role is in the enum and a Staff user has a department; it starts with no link and no session |
| UserSchema.InsertUser | Models/user.js:4 | an insertion succeeds exactly when the user is valid and its normalised e-mail is new, appending that user and keeping e-mails unique; a validation failure reports the validators' violations, and a taken e-mail is a duplicate-key error |
| UserSchema.CaseVariantsCollide | Models/user.js:4 | registering an e-mail again in other letter case is refused by the unique index |
| InternSchema.ParseStatus | Models/interns.js:32 | a status is accepted exactly when it spells one of the four enum values |
| InternSchema.ParseStatusName | Models/interns.js:32 | every status survives printing and parsing |
| InternSchema.NewComment | Models/interns.js:8-12 | a comment with text and author is valid and stamped with the creation time |
| InternSchema.MissingRequired | Models/interns.js:16-26 | a required path is reported exactly when the body leaves it absent or empty |
| InternSchema.ValidationErrors | Models/interns.js:15-33 | the violations are exactly the missing required paths plus a status outside the enum |
| InternSchema.FromBody | Models/interns.js:27-32 | required paths come from the body; attachments and comments default to empty, the picture to '' and the status to Active |
| InternSchema.FromBodyValid | Models/interns.js:16-32 | a body without violations builds a valid record carrying its values and the status it names |
| InternSchema.MissingPathRejected | Models/interns.js:16-26 | a body missing any one required path is rejected |
| Auth.RequestMagicLink | server.js:156-210 | 400 without a department and 404 without a user, each leaving users unchanged; otherwise the first user of the department gets a link expiring in 15 minutes and the reply carries its e-mail, or a 500 when mail fails with the link still stored |
| Auth.ClearLinksMatching | server.js:250-256 | every user holding the token loses its link fields and nobody else changes |
| Auth.VerifyMagicLink | server.js:239-295 | 400 without a token; success exactly when some user holds the token unexpired, and then the first such user loses its link and gains a session for one day; on failure every copy of the token is cleared |
| Auth.CheckSession | server.js:212-236 | 401 "No session" without a cookie; success exactly when some user holds the session unexpired, answering that user's e-mail, role and department |
| Auth.Logout | server.js:143-153 | without a cookie or holder nothing changes; otherwise only the first holder's session fields are cleared |
| AuthProperties.InsertKeepsWellFormed | Models/user.js:3-15 | adding a schema-valid user keeps the collection well formed |
| AuthProperties.ReplaceKeepsWellFormed | server.js:177-180 | replacing one user by a copy with fresh paired tokens keeps the collection well formed |
| AuthProperties.ClearLinksKeepsWellFormed | server.js:251-255 | clearing links keeps the collection well formed |
| AuthProperties.RequestKeepsWellFormed | server.js:173-180 | issuing a fresh link keeps e-mails unique, tokens distinct and tokens paired with expiries |
| AuthProperties.IssuedLinkWorksUntilExpiry | server.js:173-249 | the link just issued logs in the department's user exactly while it is younger than 15 minutes |
| AuthProperties.NewLinkSupersedesOld | server.js:177-180 | after a new request the earlier link of that user never works again |
| AuthProperties.VerifyKeepsWellFormed | server.js:246-273 | exchanging a link keeps the collection well formed |
| AuthProperties.LinkSingleUse | server.js:258-263 | a link that opened a session fails when presented again, at any time |
| AuthProperties.FailedLinkIsCleared | server.js:251-256 | after a failed exchange nobody holds the token and a replay fails |
| AuthProperties.SessionLivesOneDay | server.js:266-273 | a fresh session resolves to the logged-in user before 24 hours and is refused from then on, though never cleared |
| AuthProperties.NewLoginReplacesSession | server.js:269-273 | a second login replaces the user's session, so the earlier cookie is refused |
| AuthProperties.LogoutKeepsWellFormed | server.js:145-149 | logging out keeps the collection well formed |
| AuthProperties.LogoutEndsSession | server.js:145-149 | after logout the cookie's session is refused at any time |
| AuthProperties.LogoutIdempotent | server.js:143-153 | logging out twice equals logging out once |
| AuthProperties.LogoutOnlyEndsSessions | server.js:146-149 | logout changes no user except by clearing session fields |
| Records.Collect | server.js:393-397 | one path per attachment field that has an upload, and every path collected is the upload of one of the fields |
| Records.CollectOrder | server.js:393-397 | each field's upload lands right after the uploads of the earlier fields that have one |
| Records.CollectAllFour | server.js:393-397 | with all four uploads the order is letter, idCopy, acceptanceLetter, receiptCopy |
| Records.Create | server.js:382-423 | 400 with the violations, 500 on a taken id, each leaving the collection; otherwise a valid record with the body's values, collected uploads, the picture or '', no comments and the creator's e-mail when given |
| Records.List | server.js:426-442 | the records of the queried department, or all records without one |
| Records.Overlay | server.js:484-488 | every sent profile path overrides the stored value and nothing else changes |
| Records.SentEmpty | server.js:484-488 | the paths reported are exactly those sent as the empty string |
| Records.UpdateErrors | server.js:484-500 | the update fails validation exactly for an empty sent path, a status outside the enum or an invalid supplied comment |
| Records.Merge | server.js:464-488 | sent profile paths replace the stored ones and unsent ones are kept; the old attachments stay a prefix followed by the new uploads; the picture changes only with an upload, the comments only when supplied, the status only when sent (and then to the sent value), the editor's e-mail only when given; the creator's and HR's e-mails never change |
| Records.CheckedComments | server.js:469-482 | the validators see the supplied comments for a known id, else its stored comments, and an empty, valid list for an unknown id |
| Records.Update | server.js:445-503 | a validation error on the sent paths, the status or the checked comments is a 400; for an unknown id an empty path or a bad status is a 400 and anything else a 404; the update succeeds exactly when the id is known, validation passes and the new id is the old one or free; the merged record then replaces the stored one under that id, and otherwise it is a 500 when another record holds the id |
| Records.PatchStatus | server.js:506-540 | 400 for a value outside the enum and 404 for an unknown id, each leaving the collection; otherwise only the status and the HR e-mail change |
| Records.Blobs | server.js:553-569 | the released files are the attachments and the picture when there is one |
| Records.Delete | server.js:544-578 | 404 for an unknown id; otherwise exactly that record is removed and its files released |
| Records.AddComment | server.js:581-604 | 400 without text, author or author e-mail; 404 for an unknown id; otherwise exactly one stamped comment is appended and nothing else changes |
| RecordProperties.CreateKeepsValidStore | server.js:404-413 | creation keeps every record valid and under its own id |
| RecordProperties.MergeValid | server.js:467-488 | the record an update writes is valid |
| RecordProperties.UpdateKeepsValidStore | server.js:467-492 | updates keep every record valid and under its own id |
| RecordProperties.StoredCommentsPass | server.js:472-488 | on a valid collection, checking the stored comments again reports nothing beyond the supplied list's errors |
| RecordProperties.StoredInvalidCommentRefused | server.js:472-500 | a stored invalid comment makes an update that sends no comments a 400 that changes nothing |
| RecordProperties.PatchStatusKeepsValidStore | server.js:516-525 | status changes keep the collection valid |
| RecordProperties.DeleteKeepsValidStore | server.js:571 | deletion keeps the collection valid |
| RecordProperties.AddCommentKeepsValidStore | server.js:596-598 | commenting keeps the collection valid |
| RecordProperties.DuplicateCreateKeepsOriginal | Models/interns.js:16 | a second creation with the same id is refused and the first record stays |
| RecordProperties.CreatedIsListed | server.js:430-432 | a created record is listed under its department |
| RecordProperties.UpdateAppendsAttachments | server.js:469 | old attachments are a prefix of the new list, followed by the new uploads |
| RecordProperties.UpdateUnknownCreatesNothing | server.js:478-492 | updating an unknown id creates no record |
| RecordProperties.UpdateUnknownIgnoresComments | server.js:478-482 | for an unknown id the reply does not depend on the comments or files sent |
| RecordProperties.UpdateKeepsIds | server.js:484-488 | an update that keeps the id keeps the set of ids |
| RecordProperties.BogusStatusKeepsSuspension | server.js:511-514 | after Suspended, a status outside the enum leaves the intern suspended |
| RecordProperties.PatchStatusIdempotent | server.js:516-525 | setting the same status twice equals setting it once |
| RecordProperties.DeletedIsGone | server.js:548-551 | after deletion the id is not listed and every later request on it is a 404 |
| RecordProperties.TwoCommentsInOrder | server.js:596 | two comments added in turn follow the earlier ones in order |
| RecordProperties.CommentsAppendOnly | server.js:596 | earlier comments are a prefix and exactly one is added |
| RecordProperties.AuditTrailRecorded | server.js:407-409 | the creator, editor and status-changing HR e-mails are written into the record |
| Persistence.StrictComment | Models/interns.js:8-12 | a stored comment keeps text, author and time but no author e-mail |
| Persistence.StrictRecord | Models/interns.js:15-33 | a stored record keeps every declared path and loses the audit e-mails |
| Persistence.CreatorEmailLostAsWritten | server.js:407-409 | the creator's e-mail the handler writes is absent from the stored record |
| Persistence.CommentEmailLostAsWritten | server.js:596 | the author e-mail of a new comment is absent from the stored comment |
| InternList.RequestSort | public/index.js:945-950 | the clicked key becomes the sort key, descending exactly when it was the key in ascending order |
| InternList.RequestSortTwice | public/index.js:945-950 | clicking the current column twice restores the sort order |
| InternList.JoinCommas | public/index.js:915 | an array prints as '' when empty, as its element when single, and starts with its first element |
| InternList.JoinCommasConcat | public/index.js:915 | joining two non-empty lists is joining each with a comma between |
| InternList.JoinCommasContainsEach | public/index.js:915 | every element occurs in the joined string |
| InternList.SearchTexts | public/index.js:913-917 | every profile value, the status and the picture are searched |
| InternList.SearchIgnoresCase | public/index.js:915 | the letter case of the search term does not matter |
| InternList.SearchFindsPath | public/index.js:913-917 | a term found in any profile value, in any case, finds the intern |
| InternList.Visible | public/index.js:896-935 | an intern is shown exactly when it is in the list and passes every filter; without a key the list order is kept, with one the rows are sorted |
| InternList.VisibleStable | public/index.js:920-933 | rows with equal sort values keep their list order |
| InternList.ConfinedIgnoresDepartmentFilter | public/index.js:898-902 | a Staff user with a department sees only that department, whatever the department filter |
| InternList.NoFiltersShowsAll | public/index.js:896-935 | with every filter at All, no search and no key the table is the list |
| InternList.Departments | public/index.js:884 | the departments are exactly the non-empty departments of the list |
| InternList.UniqueDepartments | public/index.js:880-886 | the choices are sorted and hold All plus the list's departments, or All plus the user's department for Staff |
| InternList.ConfinedDepartmentChoices | public/index.js:881-883 | for Staff the choices are exactly the sorted pair |
| InternList.DepartmentChoicesDistinct | public/index.js:884-885 | each choice appears once unless a department is named All |
| InternList.ReportPreview | public/index.js:1172-1179 | an intern is previewed exactly when it matches the report's filters, in list order |
| InternList.IndividualReportSingle | public/index.js:1172-1173 | an individual report shows the selected intern alone when present, otherwise nothing |
| InternList.RowActions | public/index.js:1704-1731 | Staff edits and deletes; HR suspends Active, expels Suspended and reactivates Suspended or Expelled interns; everyone reports |
| InternList.StatusButtonsMove | public/index.js:1717-1731 | every status button offered targets a different status and only HR sees one, never for a completed intern |
| InternList.PageAfterLogin | public/index.js:135-141 | HR lands on the intern list and every other role on the landing page |
| Interplay.StatusButtonPatches | public/index.js:1016-1024 | a status button's request is accepted and moves the intern to the button's status |
| Interplay.LinkLoginLanding | public/index.js:105-107 | a magic-link login lands on the intern list exactly when the link's user is HR |
| Interplay.SessionLanding | public/index.js:121-124 | a resumed session lands on the intern list exactly when its holder is HR |

## Left out

- The mail transport (nodemailer) is reduced to one boolean: whether delivery succeeded. No message content is modelled.
- Token generation (`crypto.randomBytes`) and the clock (`Date.now`, `new Date`) are parameters. Lemmas that need a fresh token say so with `Fresh`.
- The Twilio OTP routes are external SMS calls and are not modelled.
- `/auth/login` and `/auth/verify-session` are not modelled: they refer to an undefined user and undefined helper functions.
- The admin user routes, Express/CORS/cookie-parser wiring and the database connection are thin plumbing and are not modelled.
- Multer storage and `fs.unlink` are file I/O. Uploads enter as a map from form field to stored path, and deletion returns the paths to release.
- Requests run one at a time. The update's read-then-write is not atomic, but races are not modelled.
- Server-side 500s from database or network failures (the `catch` branches) are not modelled. The modelled 500s are the duplicate key, the mail failure and the failed comment save.
- Records.Create: `startDate`, `endDate` and `amountPaid` are Date and Number paths. The model keeps every profile value as the string the form sends, with no casting. A value Mongoose cannot cast is not rejected, and the client sorts `amountPaid` as text where the browser compares numbers.
- Records.Update: a `comments` field sent in a multipart form is a string that Mongoose cannot cast. The model takes the comment list as already parsed (`None` when absent or falsy).
- Auth.RequestMagicLink: `user.save()` re-validates the user. The model does not repeat that check, since a well-formed collection always passes it.
- Auth.VerifyMagicLink, Auth.CheckSession, Auth.Logout and Auth.RequestMagicLink take the request fields as strings. A JSON object sent as a token is not modelled. Such an object is a query operator. A body `{"token": {"$ne": null}}` at `/auth/verify-magic-link` matches the first user with an unexpired link and opens a session for that user (server.js:246-249). A `j:{"$ne":null}` cookie is parsed into the same operator, so check-session (server.js:217) resolves the first live session and logout (server.js:146) ends it.
- Text.Lower: only ASCII letters are lower-cased, while JavaScript lower-cases all of Unicode.
- Text.LexLess compares by code point. JavaScript compares UTF-16 code units, and the two orders differ only above U+FFFF.
- InternList.SearchTexts: the database's `_id`, `createdAt`, `updatedAt` and `__v` values are not searched.
- InternList.Visible: `calculateProgress`, the per-department counts, report HTML and PDF export, and all rendering are presentation and are not modelled.
- InternSchema.ValidationErrors: the violations do not include cast errors. Mongoose also rejects a `startDate` or `endDate` it cannot read as a Date and an `amountPaid` it cannot read as a Number. The model keeps these paths as the sent text.
- InternList.Visible: `amountPaid` is sorted by its sent text. The browser receives it as a JSON Number and compares numbers (public/index.js:924-929), so 500 sorts before 1000 there but after it in the model. The dates are sorted by their sent text, not by the stored ISO timestamp.
- InternList.SearchTexts: `startDate`, `endDate` and `amountPaid` are searched as the sent text. The browser searches `String(value)` of the stored values (public/index.js:915), an ISO timestamp such as `2024-01-15T00:00:00.000Z` and a number such as `5000.5`.
- InternList.SearchFindsPath: for `startDate`, `endDate` and `amountPaid`, a term found in the sent text need not occur in the stored text the browser searches, for the same reason.
- Records.List: the model returns the records as a map, so the order the database returns them in is not stated.

## Findings

| source | as written | input that shows it | evidently intended | confidence | as-written member | corrected member |
|---|---|---|---|---|---|---|
| server.js:407-409 | The handlers write `addedByStaffEmail`, `updatedByStaffEmail`, `statusChangedByHREmail` and comment `authorEmail`. The schemas (Models/interns.js:8-33) do not declare these paths, so Mongoose's default strict mode drops them on save. | Create an intern with `staffEmail: "a@nmk.org"`: the stored record has no `addedByStaffEmail`, and the report's "Added By" line (public/index.js:1109) never shows. | The audit e-mails are stored with the record, as the client's report expects. | medium, not executed | Persistence.CreatorEmailLostAsWritten | RecordProperties.AuditTrailRecorded |

=== FILE: auth.dfy ===
/** The magic-link and session lifecycle of the server (server.js:143-295):
    request a link for a department, exchange the link for a session, resolve
    the session from its cookie, and log out. The users collection is a
    sequence in natural order, since every lookup takes the first matching
    document. The clock (`now`, in milliseconds) and the random tokens are
    parameters; the mail transport is reduced to whether delivery succeeded. */
module Auth {
  import opened Results
  import opened Seqs
  import opened UserSchema

  /** A magic link is valid for 15 minutes. */
  const LinkLifetime: int := 15 * 60 * 1000
  /** A session is valid for one day. */
  const SessionLifetime: int := 24 * 60 * 60 * 1000

  /** What the server reveals about a user: never a token. */
  datatype Identity = Identity(email: string, role: Role, department: Option<string>)

  function IdentityOf(u: User): Identity {
    Identity(u.email, u.role, u.department)
  }

  datatype AuthError =
    | DepartmentMissing     // 400 'Department is required.'
    | NoUserForDepartment   // 404 'No user found for this department.'
    | MailFailed            // 500 'Failed to send magic link.'
    | TokenMissing          // 400 'Token is required.'
    | InvalidLink           // 401 'Invalid or expired magic link token.'
    | NoSession             // 401 'No session'
    | InvalidSession        // 401 'Invalid session', and the cookie is cleared

  function HttpStatus(e: AuthError): int {
    match e
    case DepartmentMissing => 400
    case NoUserForDepartment => 404
    case MailFailed => 500
    case TokenMissing => 400
    case InvalidLink => 401
    case NoSession => 401
    case InvalidSession => 401
  }

  /** The collection after a request, and the reply. */
  datatype Step<T> = Step(users: seq<User>, reply: Result<T, AuthError>)

  /** A successful login: who logged in, and the session token set as the
      http-only `authToken` cookie. */
  datatype Login = Login(user: Identity, cookie: string)

  // ---------------------------------------------------------------------------
  // Field updates

  function WithLink(u: User, token: string, expires: int): User {
    u.(magicLinkToken := Some(token), magicLinkTokenExpires := Some(expires))
  }

  function ClearLink(u: User): User {
    u.(magicLinkToken := None, magicLinkTokenExpires := None)
  }

  function WithSession(u: User, token: string, expires: int): User {
    u.(sessionToken := Some(token), sessionExpires := Some(expires))
  }

  function ClearSession(u: User): User {
    u.(sessionToken := None, sessionExpires := None)
  }

  /** The query `{magicLinkToken: token, magicLinkTokenExpires: {$gt: now}}`. */
  predicate LiveLink(u: User, token: string, now: int) {
    u.magicLinkToken == Some(token) && u.magicLinkTokenExpires.Some? && u.magicLinkTokenExpires.value > now
  }

  /** The query `{sessionToken: token, sessionExpires: {$gt: now}}`. */
  predicate LiveSession(u: User, token: string, now: int) {
    u.sessionToken == Some(token) && u.sessionExpires.Some? && u.sessionExpires.value > now
  }

  /** The query `{department: d}`. */
  function InDepartment(d: Option<string>): User -> bool {
    (u: User) => u.department == d
  }

  /** The link query, as a predicate over users. */
  function HasLiveLink(token: string, now: int): User -> bool {
    (u: User) => LiveLink(u, token, now)
  }

  /** The session query, as a predicate over users. */
  function HasLiveSession(token: string, now: int): User -> bool {
    (u: User) => LiveSession(u, token, now)
  }

  /** The query `{sessionToken: token}`, regardless of expiry. */
  function HoldsSession(token: Option<string>): User -> bool {
    (u: User) => u.sessionToken == token
  }

  /** `i` is the first user in natural order that satisfies `p`. */
  predicate IsFirst(users: seq<User>, i: int, p: User -> bool) {
    0 <= i < |users| && p(users[i]) && forall j :: 0 <= j < i ==> !p(users[j])
  }

  // ---------------------------------------------------------------------------
  // POST /auth/request-magic-link

  /** Issues `token` to the first user of the department, replacing any link
      that user had pending, and answers with that user's e-mail. The token is
      stored before the mail is sent, so a failed delivery still leaves it in
      place. */
  function RequestMagicLink(users: seq<User>, department: Option<string>, now: int, token: string, delivered: bool)
    : (r: Step<string>)
    ensures !Truthy(department) ==> r == Step(users, Err(DepartmentMissing))
    ensures (Truthy(department) && forall k :: 0 <= k < |users| ==> users[k].department != department) ==>
              r == Step(users, Err(NoUserForDepartment))
    ensures (Truthy(department) && exists k :: 0 <= k < |users| && users[k].department == department) ==>
              exists i :: && IsFirst(users, i, InDepartment(department))
                          && r.users == users[i := WithLink(users[i], token, now + LinkLifetime)]
                          && r.reply == (if delivered then Ok(users[i].email) else Err(MailFailed))
  {
    if !Truthy(department) then Step(users, Err(DepartmentMissing))
    else
      match FindFirst(users, InDepartment(department))
      case None => Step(users, Err(NoUserForDepartment))
      case Some(i) =>
        var updated := users[i := WithLink(users[i], token, now + LinkLifetime)];
        assert IsFirst(users, i, InDepartment(department));
        Step(updated, if delivered then Ok(users[i].email) else Err(MailFailed))
  }

  // ---------------------------------------------------------------------------
  // POST /auth/verify-magic-link

  /** On a failed exchange every user whose stored link equals the presented
      token loses its link, expired or not. */
  function ClearLinksMatching(users: seq<User>, token: string): (r: seq<User>)
    ensures |r| == |users|
    ensures forall k :: 0 <= k < |users| ==>
              r[k] == (if users[k].magicLinkToken == Some(token) then ClearLink(users[k]) else users[k])
  {
    seq(|users|, k requires 0 <= k < |users| =>
      if users[k].magicLinkToken == Some(token) then ClearLink(users[k]) else users[k])
  }

  /** Exchanges a magic-link token for a session. */
  function VerifyMagicLink(users: seq<User>, token: Option<string>, now: int, session: string)
    : (r: Step<Login>)
    ensures !Truthy(token) ==> r == Step(users, Err(TokenMissing))
    ensures Truthy(token) ==>
              (r.reply.Ok? <==> exists k :: 0 <= k < |users| && LiveLink(users[k], token.value, now))
    ensures r.reply.Ok? ==>
              exists i :: && IsFirst(users, i, HasLiveLink(token.value, now))
                          && r.users == users[i := WithSession(ClearLink(users[i]), session, now + SessionLifetime)]
                          && r.reply.value == Login(IdentityOf(users[i]), session)
    ensures Truthy(token) && r.reply.Err? ==>
              r.reply.error == InvalidLink && r.users == ClearLinksMatching(users, token.value)
  {
    if !Truthy(token) then Step(users, Err(TokenMissing))
    else
      var t := token.value;
      match FindFirst(users, HasLiveLink(t, now))
      case None => Step(ClearLinksMatching(users, t), Err(InvalidLink))
      case Some(i) =>
        assert IsFirst(users, i, HasLiveLink(t, now));
        var u := WithSession(ClearLink(users[i]), session, now + SessionLifetime);
        Step(users[i := u], Ok(Login(IdentityOf(users[i]), session)))
  }

  // ---------------------------------------------------------------------------
  // GET /auth/check-session

  /** Resolves the `authToken` cookie to the identity of its session. An
      `InvalidSession` reply also clears the cookie; the collection is not
      changed either way. */
  function CheckSession(users: seq<User>, cookie: Option<string>, now: int): (r: Result<Identity, AuthError>)
    ensures !Truthy(cookie) ==> r == Err(NoSession)
    ensures Truthy(cookie) ==>
              (r.Ok? <==> exists k :: 0 <= k < |users| && LiveSession(users[k], cookie.value, now))
    ensures Truthy(cookie) && r.Err? ==> r.error == InvalidSession
    ensures r.Ok? ==> exists i :: IsFirst(users, i, HasLiveSession(cookie.value, now))
                                  && r.value == IdentityOf(users[i])
  {
    if !Truthy(cookie) then Err(NoSession)
    else
      var c := cookie.value;
      match FindFirst(users, HasLiveSession(c, now))
      case None => Err(InvalidSession)
      case Some(i) =>
        assert IsFirst(users, i, HasLiveSession(c, now));
        Ok(IdentityOf(users[i]))
  }

  // ---------------------------------------------------------------------------
  // POST /auth/logout

  /** Ends the session the cookie names, if a user holds it (expired or not).
      The request always succeeds and always clears the cookie, so only the
      collection is returned. */
  function Logout(users: seq<User>, cookie: Option<string>): (r: seq<User>)
    ensures |r| == |users|
    ensures !Truthy(cookie) ==> r == users
    ensures Truthy(cookie) && (forall k :: 0 <= k < |users| ==> users[k].sessionToken != cookie) ==> r == users
    ensures Truthy(cookie) && (exists k :: 0 <= k < |users| && users[k].sessionToken == cookie) ==>
              exists i :: IsFirst(users, i, HoldsSession(cookie))
                          && r == users[i := ClearSession(users[i])]
  {
    if !Truthy(cookie) then users
    else
      match FindFirst(users, HoldsSession(cookie))
      case None => users
      case Some(i) =>
        assert IsFirst(users, i, HoldsSession(cookie));
        users[i := ClearSession(users[i])]
  }
}

=== FILE: auth_properties.dfy ===
/** Properties of the magic-link and session lifecycle: the collection stays
    well formed, a link is single-use and expires, a new link or a new login
    replaces the earlier one instead of adding to it, an expired session is
    refused although it was never cleared, and logging out is idempotent. */
module AuthProperties {
  import opened Results
  import opened UserSchema
  import opened Auth

  /** No two users hold the same pending link. */
  predicate LinksDistinct(users: seq<User>) {
    forall i, j :: 0 <= i < |users| && 0 <= j < |users| && i != j && users[i].magicLinkToken.Some? ==>
      users[i].magicLinkToken != users[j].magicLinkToken
  }

  /** No two users hold the same session. */
  predicate SessionsDistinct(users: seq<User>) {
    forall i, j :: 0 <= i < |users| && 0 <= j < |users| && i != j && users[i].sessionToken.Some? ==>
      users[i].sessionToken != users[j].sessionToken
  }

  /** A token and its expiry are set and cleared together. */
  predicate Paired(u: User) {
    && (u.magicLinkToken.Some? <==> u.magicLinkTokenExpires.Some?)
    && (u.sessionToken.Some? <==> u.sessionExpires.Some?)
  }

  /** The invariant of the users collection. */
  predicate WellFormed(users: seq<User>) {
    && UniqueEmails(users)
    && (forall k :: 0 <= k < |users| ==> ValidUser(users[k]) && Paired(users[k]))
    && LinksDistinct(users)
    && SessionsDistinct(users)
  }

  /** A freshly generated token is held by nobody, as a link or as a session. */
  predicate Fresh(users: seq<User>, t: string) {
    forall k :: 0 <= k < |users| ==> users[k].magicLinkToken != Some(t) && users[k].sessionToken != Some(t)
  }

  /** A user created by the schema can join a well-formed collection. */
  lemma InsertKeepsWellFormed(users: seq<User>, email: Option<string>, role: Option<string>, department: Option<string>)
    requires WellFormed(users)
    requires InsertUser(users, email, role, department).Ok?
    ensures WellFormed(InsertUser(users, email, role, department).value)
  {
    var r := InsertUser(users, email, role, department).value;
    assert forall k :: 0 <= k < |users| ==> r[k] == users[k];
  }

  /** Replacing one user by a copy with the same e-mail, role and department
      keeps the collection well formed, provided the copy's tokens are paired
      with their expiries and are held by no other user. */
  lemma ReplaceKeepsWellFormed(users: seq<User>, i: int, u: User)
    requires WellFormed(users) && 0 <= i < |users|
    requires u.email == users[i].email && u.role == users[i].role && u.department == users[i].department
    requires Paired(u)
    requires u.magicLinkToken.Some? ==>
               forall k :: 0 <= k < |users| && k != i ==> users[k].magicLinkToken != u.magicLinkToken
    requires u.sessionToken.Some? ==>
               forall k :: 0 <= k < |users| && k != i ==> users[k].sessionToken != u.sessionToken
    ensures WellFormed(users[i := u])
  {
    var r := users[i := u];
    assert forall k :: 0 <= k < |r| && k != i ==> r[k] == users[k];
    assert ValidUser(u) by { assert ValidUser(users[i]); }
    assert UniqueEmails(r);
    assert LinksDistinct(r);
    assert SessionsDistinct(r);
  }

  /** Clearing links never breaks the invariant. */
  lemma ClearLinksKeepsWellFormed(users: seq<User>, token: string)
    requires WellFormed(users)
    ensures WellFormed(ClearLinksMatching(users, token))
  {
    var r := ClearLinksMatching(users, token);
    forall k | 0 <= k < |r|
      ensures r[k].email == users[k].email && r[k].role == users[k].role && r[k].department == users[k].department
      ensures r[k].sessionToken == users[k].sessionToken && r[k].sessionExpires == users[k].sessionExpires
      ensures r[k].magicLinkToken == users[k].magicLinkToken || r[k].magicLinkToken == None
      ensures r[k].magicLinkToken.Some? <==> r[k].magicLinkTokenExpires.Some?
    {
      assert Paired(users[k]);
    }
    forall i, j | 0 <= i < j < |r| ensures r[i].email != r[j].email {
      assert users[i].email != users[j].email;
    }
    forall k | 0 <= k < |r| ensures ValidUser(r[k]) && Paired(r[k]) {
      assert ValidUser(users[k]);
    }
    forall i, j | 0 <= i < |r| && 0 <= j < |r| && i != j && r[i].magicLinkToken.Some?
      ensures r[i].magicLinkToken != r[j].magicLinkToken
    {
      assert r[i].magicLinkToken == users[i].magicLinkToken;
    }
    forall i, j | 0 <= i < |r| && 0 <= j < |r| && i != j && r[i].sessionToken.Some?
      ensures r[i].sessionToken != r[j].sessionToken
    {
      assert users[i].sessionToken != users[j].sessionToken;
    }
  }

  // ---------------------------------------------------------------------------
  // Requesting a link

  lemma RequestKeepsWellFormed(users: seq<User>, department: Option<string>, now: int, token: string, delivered: bool)
    requires WellFormed(users) && Fresh(users, token)
    ensures WellFormed(RequestMagicLink(users, department, now, token, delivered).users)
  {
    var r := RequestMagicLink(users, department, now, token, delivered);
    if Truthy(department) && exists k :: 0 <= k < |users| && users[k].department == department {
      var i :| IsFirst(users, i, InDepartment(department))
               && r.users == users[i := WithLink(users[i], token, now + LinkLifetime)];
      ReplaceKeepsWellFormed(users, i, WithLink(users[i], token, now + LinkLifetime));
    }
  }

  /** The link just issued opens a session exactly while it is younger than
      15 minutes, and it logs in the user of the requested department. The
      token is stored before delivery, so this holds even when the mail failed. */
  lemma IssuedLinkWorksUntilExpiry(users: seq<User>, department: Option<string>, now: int, token: string,
                                   delivered: bool, later: int, session: string)
    requires Fresh(users, token) && token != ""
    requires Truthy(department) && exists k :: 0 <= k < |users| && users[k].department == department
    ensures var after := RequestMagicLink(users, department, now, token, delivered).users;
            var login := VerifyMagicLink(after, Some(token), later, session);
            && (login.reply.Ok? <==> later < now + LinkLifetime)
            && (login.reply.Ok? ==> login.reply.value.user.department == department)
  {
    var after := RequestMagicLink(users, department, now, token, delivered).users;
    var i :| IsFirst(users, i, InDepartment(department))
             && after == users[i := WithLink(users[i], token, now + LinkLifetime)];
    assert LiveLink(after[i], token, later) <==> later < now + LinkLifetime;
    assert forall k :: 0 <= k < |after| && k != i ==> !LiveLink(after[k], token, later);
    var login := VerifyMagicLink(after, Some(token), later, session);
    if login.reply.Ok? {
      var j :| IsFirst(after, j, HasLiveLink(token, later))
               && login.reply.value == Login(IdentityOf(after[j]), session);
      assert j == i;
    }
  }

  /** Requesting a second link replaces the first: the earlier token no longer
      opens a session, at any time. */
  lemma NewLinkSupersedesOld(users: seq<User>, department: Option<string>, now: int, token: string,
                             delivered: bool, prior: string, later: int, session: string)
    requires LinksDistinct(users) && Fresh(users, token)
    requires Truthy(department)
    requires exists i :: IsFirst(users, i, InDepartment(department)) && users[i].magicLinkToken == Some(prior)
    ensures var after := RequestMagicLink(users, department, now, token, delivered).users;
            VerifyMagicLink(after, Some(prior), later, session).reply.Err?
  {
    var i :| IsFirst(users, i, InDepartment(department)) && users[i].magicLinkToken == Some(prior);
    var after := RequestMagicLink(users, department, now, token, delivered).users;
    var i' :| IsFirst(users, i', InDepartment(department))
              && after == users[i' := WithLink(users[i'], token, now + LinkLifetime)];
    assert i' == i;
    assert forall k :: 0 <= k < |after| ==> after[k].magicLinkToken != Some(prior);
  }

  // ---------------------------------------------------------------------------
  // Exchanging a link

  lemma VerifyKeepsWellFormed(users: seq<User>, token: Option<string>, now: int, session: string)
    requires WellFormed(users) && Fresh(users, session)
    ensures WellFormed(VerifyMagicLink(users, token, now, session).users)
  {
    var r := VerifyMagicLink(users, token, now, session);
    if r.reply.Ok? {
      var i :| IsFirst(users, i, HasLiveLink(token.value, now))
               && r.users == users[i := WithSession(ClearLink(users[i]), session, now + SessionLifetime)];
      ReplaceKeepsWellFormed(users, i, WithSession(ClearLink(users[i]), session, now + SessionLifetime));
    } else if Truthy(token) {
      ClearLinksKeepsWellFormed(users, token.value);
    }
  }

  /** A link is single-use: once it has opened a session, presenting it again
      fails, whenever that happens. */
  lemma LinkSingleUse(users: seq<User>, token: string, now: int, session: string, later: int, session2: string)
    requires LinksDistinct(users)
    requires VerifyMagicLink(users, Some(token), now, session).reply.Ok?
    ensures var after := VerifyMagicLink(users, Some(token), now, session).users;
            VerifyMagicLink(after, Some(token), later, session2) == Step(after, Err(InvalidLink))
  {
    var r := VerifyMagicLink(users, Some(token), now, session);
    var i :| IsFirst(users, i, HasLiveLink(token, now))
             && r.users == users[i := WithSession(ClearLink(users[i]), session, now + SessionLifetime)];
    assert forall k :: 0 <= k < |r.users| ==> r.users[k].magicLinkToken != Some(token);
    var again := VerifyMagicLink(r.users, Some(token), later, session2);
    assert again.users == r.users;
  }

  /** A failed exchange clears every stored copy of the token, so it can never
      be replayed, even by a user whose copy had not yet expired elsewhere. */
  lemma FailedLinkIsCleared(users: seq<User>, token: string, now: int, session: string, later: int, session2: string)
    requires token != ""
    requires VerifyMagicLink(users, Some(token), now, session).reply.Err?
    ensures var after := VerifyMagicLink(users, Some(token), now, session).users;
            && (forall k :: 0 <= k < |after| ==> after[k].magicLinkToken != Some(token))
            && VerifyMagicLink(after, Some(token), later, session2).reply.Err?
  {
  }

  /** The session minted by a login resolves to the user until it is 24 hours
      old and is refused from then on, although it is never cleared. */
  lemma SessionLivesOneDay(users: seq<User>, token: string, now: int, session: string, later: int)
    requires Fresh(users, session) && session != ""
    requires VerifyMagicLink(users, Some(token), now, session).reply.Ok?
    ensures var r := VerifyMagicLink(users, Some(token), now, session);
            CheckSession(r.users, Some(session), later)
              == (if later < now + SessionLifetime then Ok(r.reply.value.user) else Err(InvalidSession))
  {
    var r := VerifyMagicLink(users, Some(token), now, session);
    var i :| IsFirst(users, i, HasLiveLink(token, now))
             && r.users == users[i := WithSession(ClearLink(users[i]), session, now + SessionLifetime)]
             && r.reply.value == Login(IdentityOf(users[i]), session);
    assert forall k :: 0 <= k < |r.users| && k != i ==> r.users[k].sessionToken != Some(session);
    if later < now + SessionLifetime {
      assert LiveSession(r.users[i], session, later);
    }
    var c := CheckSession(r.users, Some(session), later);
    if c.Ok? {
      var j :| IsFirst(r.users, j, HasLiveSession(session, later)) && c.value == IdentityOf(r.users[j]);
      assert j == i;
    }
  }

  /** Logging in again replaces the user's session instead of adding one: the
      earlier session cookie is refused from then on. */
  lemma NewLoginReplacesSession(users: seq<User>, i: int, token: string, now: int, session: string,
                                prior: string, later: int)
    requires LinksDistinct(users) && SessionsDistinct(users) && Fresh(users, session) && token != ""
    requires 0 <= i < |users| && LiveLink(users[i], token, now) && users[i].sessionToken == Some(prior)
    ensures var r := VerifyMagicLink(users, Some(token), now, session);
            && r.reply.Ok?
            && CheckSession(r.users, Some(prior), later).Err?
  {
    var r := VerifyMagicLink(users, Some(token), now, session);
    var j :| IsFirst(users, j, HasLiveLink(token, now))
             && r.users == users[j := WithSession(ClearLink(users[j]), session, now + SessionLifetime)];
    assert j == i;
    assert forall k :: 0 <= k < |r.users| ==> r.users[k].sessionToken != Some(prior);
  }

  // ---------------------------------------------------------------------------
  // Checking a session and logging out

  lemma LogoutKeepsWellFormed(users: seq<User>, cookie: Option<string>)
    requires WellFormed(users)
    ensures WellFormed(Logout(users, cookie))
  {
    var r := Logout(users, cookie);
    if Truthy(cookie) && exists k :: 0 <= k < |users| && users[k].sessionToken == cookie {
      var i :| IsFirst(users, i, HoldsSession(cookie)) && r == users[i := ClearSession(users[i])];
      ReplaceKeepsWellFormed(users, i, ClearSession(users[i]));
    }
  }

  /** After logging out, the cookie's session is refused at any time. */
  lemma LogoutEndsSession(users: seq<User>, cookie: string, later: int)
    requires SessionsDistinct(users) && cookie != ""
    ensures CheckSession(Logout(users, Some(cookie)), Some(cookie), later) == Err(InvalidSession)
  {
    var r := Logout(users, Some(cookie));
    if exists k :: 0 <= k < |users| && users[k].sessionToken == Some(cookie) {
      var i :| IsFirst(users, i, HoldsSession(Some(cookie))) && r == users[i := ClearSession(users[i])];
      assert forall k :: 0 <= k < |r| ==> r[k].sessionToken != Some(cookie);
    }
  }

  /** Logging out twice with the same cookie is the same as logging out once. */
  lemma LogoutIdempotent(users: seq<User>, cookie: Option<string>)
    requires SessionsDistinct(users)
    ensures Logout(Logout(users, cookie), cookie) == Logout(users, cookie)
  {
    var r := Logout(users, cookie);
    if Truthy(cookie) && exists k :: 0 <= k < |users| && users[k].sessionToken == cookie {
      var i :| IsFirst(users, i, HoldsSession(cookie)) && r == users[i := ClearSession(users[i])];
      assert forall k :: 0 <= k < |r| ==> r[k].sessionToken != cookie;
    }
  }

  /** Logging out touches at most the session fields of one user. */
  lemma LogoutOnlyEndsSessions(users: seq<User>, cookie: Option<string>)
    ensures forall k :: 0 <= k < |users| ==>
              Logout(users, cookie)[k] == users[k] || Logout(users, cookie)[k] == ClearSession(users[k])
  {
    var r := Logout(users, cookie);
    if Truthy(cookie) && exists k :: 0 <= k < |users| && users[k].sessionToken == cookie {
      var i :| IsFirst(users, i, HoldsSession(cookie)) && r == users[i := ClearSession(users[i])];
    }
  }
}

=== FILE: intern_list.dfy ===
/** The list logic of the browser client (public/index.js): the filtered and
    sorted intern table, the sort toggle, the department choices, the report
    preview, which action buttons a row shows, and the page a login lands on.
    Interns are the records the server sends; the database's own `_id`,
    `createdAt`, `updatedAt` and `__v` keys are not part of the model. */
module InternList {
  import opened Results
  import opened Text
  import opened Seqs
  import opened Sorting
  import opened InternSchema
  import opened UserSchema

  // ---------------------------------------------------------------------------
  // Sorting configuration

  /** The columns the table can be sorted by: the profile paths and the status. */
  datatype SortKey = ByPath(path: Path) | ByStatus

  /** The sort state; it starts with no key, ascending. */
  datatype SortConfig = SortConfig(key: Option<SortKey>, descending: bool)

  const InitialSort := SortConfig(None, false)

  /** Clicking a column header. */
  function RequestSort(config: SortConfig, k: SortKey): (r: SortConfig)
    ensures r.key == Some(k)
    ensures r.descending <==> config.key == Some(k) && !config.descending
  {
    if config.key == Some(k) && !config.descending then SortConfig(Some(k), true)
    else SortConfig(Some(k), false)
  }

  /** Clicking the current sort column twice restores the sort order. */
  lemma RequestSortTwice(config: SortConfig, k: SortKey)
    requires config.key == Some(k)
    ensures RequestSort(RequestSort(config, k), k) == config
  {
  }

  /** The text a column compares: `a[key]` for the sort key. */
  function KeyText(i: Intern, k: SortKey): string {
    match k
    case ByPath(p) => Get(i, p)
    case ByStatus => StatusName(i.status)
  }

  function SortValue(k: SortKey): Intern -> string {
    (i: Intern) => KeyText(i, k)
  }

  // ---------------------------------------------------------------------------
  // Search

  /** `Array.prototype.toString`: the elements joined by commas. */
  function JoinCommas(parts: seq<string>): (r: string)
    ensures |parts| == 0 ==> r == ""
    ensures |parts| == 1 ==> r == parts[0]
    ensures |parts| > 0 ==> parts[0] <= r
  {
    if |parts| == 0 then ""
    else if |parts| == 1 then parts[0]
    else parts[0] + "," + JoinCommas(parts[1..])
  }

  /** Joining two non-empty lists is joining each and putting a comma between. */
  lemma {:induction false} JoinCommasConcat(a: seq<string>, b: seq<string>)
    requires |a| > 0 && |b| > 0
    ensures JoinCommas(a + b) == JoinCommas(a) + "," + JoinCommas(b)
    decreases |a|
  {
    if |a| == 1 {
      assert (a + b)[1..] == b;
    } else {
      assert (a + b)[1..] == a[1..] + b;
      JoinCommasConcat(a[1..], b);
    }
  }

  /** Every part occurs in the joined string, so a search term found in one
      attachment path is found in the joined list. */
  lemma {:induction false} JoinCommasContainsEach(parts: seq<string>, k: nat)
    requires k < |parts|
    ensures Contains(JoinCommas(parts), parts[k])
    decreases |parts|
  {
    var r := JoinCommas(parts);
    if k == 0 {
      assert OccursAt(r, parts[0], 0);
    } else {
      var rest := JoinCommas(parts[1..]);
      JoinCommasContainsEach(parts[1..], k - 1);
      var i :| OccursAt(rest, parts[k], i);
      var off := |parts[0]| + 1;
      assert r == (parts[0] + ",") + rest;
      assert r[off + i..off + i + |parts[k]|] == rest[i..i + |parts[k]|];
      assert OccursAt(r, parts[k], off + i);
    }
  }

  /** `String(value)` of every value of an intern object. A comment is an
      object, which prints as `[object Object]`; an audit e-mail is a key only
      when it was written. */
  function SearchTexts(i: Intern): (r: seq<string>)
    ensures forall p: Path :: Get(i, p) in r
    ensures StatusName(i.status) in r && i.profilePicture in r
  {
    [i.idNumber, i.fullName, i.institution, i.department, i.monthJoined, i.startDate, i.endDate,
     i.phoneNumber, i.amountPaid, i.receiptNumber, i.institutionSupervisor,
     JoinCommas(i.attachments),
     JoinCommas(seq(|i.comments|, _ => "[object Object]")),
     i.profilePicture,
     StatusName(i.status)]
    + (if i.addedByStaffEmail.Some? then [i.addedByStaffEmail.value] else [])
    + (if i.updatedByStaffEmail.Some? then [i.updatedByStaffEmail.value] else [])
    + (if i.statusChangedByHREmail.Some? then [i.statusChangedByHREmail.value] else [])
  }

  /** Some value, lower-cased, contains the lower-cased search term. */
  predicate MatchesSearch(i: Intern, term: string) {
    exists k :: 0 <= k < |SearchTexts(i)| && Contains(Lower(SearchTexts(i)[k]), Lower(term))
  }

  /** The search ignores the letter case of the term. */
  lemma SearchIgnoresCase(i: Intern, term: string)
    ensures MatchesSearch(i, Lower(term)) <==> MatchesSearch(i, term)
  {
    LowerIdempotent(term);
  }

  /** A term found in any profile path, in any letter case, finds the intern. */
  lemma SearchFindsPath(i: Intern, p: Path, term: string)
    requires Contains(Lower(Get(i, p)), Lower(term))
    ensures MatchesSearch(i, term)
  {
    var texts := SearchTexts(i);
    var k :| 0 <= k < |texts| && texts[k] == Get(i, p);
  }

  // ---------------------------------------------------------------------------
  // The table

  /** The state the table is computed from. `departmentFilter` starts as the
      user's department for Staff, which may be null. */
  datatype View = View(
    role: Option<Role>,
    userDepartment: Option<string>,
    departmentFilter: Option<string>,
    institutionFilter: string,
    statusFilter: string,
    searchTerm: string,
    sort: SortConfig)

  /** A Staff user with a department is confined to it. */
  predicate Confined(v: View) {
    v.role == Some(Staff) && Truthy(v.userDepartment)
  }

  /** The four filters, applied in the table's order. */
  predicate KeptBy(v: View, i: Intern) {
    && (if Confined(v) then i.department == v.userDepartment.value
        else v.departmentFilter == Some("All") || Some(i.department) == v.departmentFilter)
    && (v.institutionFilter == "All" || i.institution == v.institutionFilter)
    && (v.statusFilter == "All" || StatusName(i.status) == v.statusFilter)
    && (v.searchTerm == "" || MatchesSearch(i, v.searchTerm))
  }

  function Keeps(v: View): Intern -> bool {
    (i: Intern) => KeptBy(v, i)
  }

  /** `sortedAndFilteredInterns`: the kept interns, in the order of the list,
      or sorted by the key when there is one. */
  function Visible(v: View, interns: seq<Intern>): (r: seq<Intern>)
    ensures forall x :: x in r <==> x in interns && KeptBy(v, x)
    ensures |r| <= |interns|
    ensures v.sort.key.None? ==> IsSubseq(r, interns)
    ensures v.sort.key.Some? ==>
              && SortedBy(SortValue(v.sort.key.value), v.sort.descending, r)
              && multiset(r) == multiset(Filter(interns, Keeps(v)))
  {
    var kept := Filter(interns, Keeps(v));
    if v.sort.key.None? then kept
    else
      var r := SortBy(SortValue(v.sort.key.value), v.sort.descending, kept);
      assert forall x :: x in r <==> x in kept by {
        forall x ensures x in r <==> x in kept {
          assert x in r <==> x in multiset(r);
          assert x in kept <==> x in multiset(kept);
        }
      }
      r
  }

  /** Sorting is stable: interns with equal keys keep their order in the list. */
  lemma VisibleStable(v: View, interns: seq<Intern>, keyText: string)
    requires v.sort.key.Some?
    ensures var key := SortValue(v.sort.key.value);
            WithKey(key, keyText, Visible(v, interns)) == WithKey(key, keyText, Filter(interns, Keeps(v)))
  {
    SortStable(SortValue(v.sort.key.value), v.sort.descending, Filter(interns, Keeps(v)), keyText);
  }

  /** A confined Staff user sees only interns of their own department, and the
      department filter makes no difference. */
  lemma ConfinedIgnoresDepartmentFilter(v: View, interns: seq<Intern>, other: Option<string>)
    requires Confined(v)
    ensures forall x :: x in Visible(v, interns) ==> x.department == v.userDepartment.value
    ensures Visible(v.(departmentFilter := other), interns) == Visible(v, interns)
  {
    var w := v.(departmentFilter := other);
    FilterAgree(interns, Keeps(w), Keeps(v));
  }

  /** With every filter at 'All', no search and no sort, the table is the list. */
  lemma NoFiltersShowsAll(v: View, interns: seq<Intern>)
    requires !Confined(v) && v.departmentFilter == Some("All")
    requires v.institutionFilter == "All" && v.statusFilter == "All" && v.searchTerm == ""
    requires v.sort.key.None?
    ensures Visible(v, interns) == interns
  {
  }

  // ---------------------------------------------------------------------------
  // Department choices

  function Self(s: string): string {
    s
  }

  predicate NonEmpty(s: string) {
    s != ""
  }

  /** `interns.map(i => i.department).filter(Boolean)`. */
  function Departments(interns: seq<Intern>): (r: seq<string>)
    ensures forall d :: d in r <==> d != "" && exists k :: 0 <= k < |interns| && interns[k].department == d
  {
    var all := seq(|interns|, k requires 0 <= k < |interns| => interns[k].department);
    assert forall d :: d in all <==> exists k :: 0 <= k < |interns| && interns[k].department == d by {
      forall d ensures d in all <==> exists k :: 0 <= k < |interns| && interns[k].department == d {
        if exists k :: 0 <= k < |interns| && interns[k].department == d {
          var k :| 0 <= k < |interns| && interns[k].department == d;
          assert all[k] == d;
        }
      }
    }
    var r := Filter(all, NonEmpty);
    forall d ensures d in r <==> d in all && d != "" {
      if d in r {
        var i :| 0 <= i < |r| && r[i] == d;
        assert NonEmpty(r[i]);
      }
      if d in all && d != "" {
        var i :| 0 <= i < |all| && all[i] == d;
        assert NonEmpty(all[i]);
      }
    }
    r
  }

  /** `uniqueDepartments`: 'All' and the distinct departments of the list, or
      for a confined Staff user 'All' and their department, sorted by the
      default string order. */
  function UniqueDepartments(role: Option<Role>, userDepartment: Option<string>, interns: seq<Intern>)
    : (r: seq<string>)
    ensures SortedBy(Self, false, r)
    ensures "All" in r
    ensures role == Some(Staff) && Truthy(userDepartment) ==>
              multiset(r) == multiset{"All", userDepartment.value}
    ensures !(role == Some(Staff) && Truthy(userDepartment)) ==>
              forall d :: d in r <==> d == "All" || d in Departments(interns)
  {
    if role == Some(Staff) && Truthy(userDepartment) then
      var r := SortBy(Self, false, ["All", userDepartment.value]);
      assert "All" in multiset(r) by {
        assert multiset(["All", userDepartment.value]) == multiset{"All", userDepartment.value};
      }
      r
    else
      var choices := ["All"] + Dedup(Departments(interns));
      var r := SortBy(Self, false, choices);
      assert forall d :: d in r <==> d in choices by {
        forall d ensures d in r <==> d in choices {
          assert d in r <==> d in multiset(r);
          assert d in choices <==> d in multiset(choices);
        }
      }
      r
  }

  /** For a confined Staff user the choices are exactly the sorted pair. */
  lemma ConfinedDepartmentChoices(userDepartment: string, interns: seq<Intern>)
    requires userDepartment != ""
    ensures UniqueDepartments(Some(Staff), Some(userDepartment), interns)
         == (if LexLess(userDepartment, "All") then [userDepartment, "All"] else ["All", userDepartment])
  {
    var d := userDepartment;
    assert SortBy(Self, false, [d]) == [d] by {
      assert [d][1..] == [];
    }
    assert ["All", d][1..] == [d];
  }

  /** Each choice is offered once, unless some department is itself named 'All'. */
  lemma DepartmentChoicesDistinct(role: Option<Role>, userDepartment: Option<string>, interns: seq<Intern>)
    requires !(role == Some(Staff) && Truthy(userDepartment))
    requires forall k :: 0 <= k < |interns| ==> interns[k].department != "All"
    ensures NoDup(UniqueDepartments(role, userDepartment, interns))
  {
    var deps := Dedup(Departments(interns));
    var choices := ["All"] + deps;
    assert "All" !in Departments(interns);
    assert "All" !in deps;
    NoDupCons("All", deps);
    NoDupPermutation(UniqueDepartments(role, userDepartment, interns), choices);
  }

  // ---------------------------------------------------------------------------
  // Report preview

  /** The report's filters: an individual report names one intern; otherwise
      status, institution and department must each match or be 'All'. */
  datatype ReportQuery = ReportQuery(
    individual: bool,
    selectedId: string,
    statusFilter: string,
    institutionFilter: string,
    departmentFilter: string)

  predicate InReport(q: ReportQuery, i: Intern) {
    if q.individual && q.selectedId != "" then i.idNumber == q.selectedId
    else
      && (q.statusFilter == "All" || StatusName(i.status) == q.statusFilter)
      && (q.institutionFilter == "All" || i.institution == q.institutionFilter)
      && (q.departmentFilter == "All" || i.department == q.departmentFilter)
  }

  function InReportBy(q: ReportQuery): Intern -> bool {
    (i: Intern) => InReport(q, i)
  }

  /** The interns the report preview shows, in list order. */
  function ReportPreview(q: ReportQuery, interns: seq<Intern>): (r: seq<Intern>)
    ensures forall x :: x in r <==> x in interns && InReport(q, x)
    ensures IsSubseq(r, interns)
  {
    Filter(interns, InReportBy(q))
  }

  /** Ids are unique in the list the server sends. */
  predicate DistinctIds(interns: seq<Intern>) {
    forall i, j :: 0 <= i < j < |interns| ==> interns[i].idNumber != interns[j].idNumber
  }

  /** An individual report shows exactly the selected intern when it is in the
      list, and nothing otherwise. */
  lemma IndividualReportSingle(q: ReportQuery, interns: seq<Intern>)
    requires q.individual && q.selectedId != "" && DistinctIds(interns)
    ensures |ReportPreview(q, interns)| <= 1
    ensures |ReportPreview(q, interns)| == 1 <==> exists k :: 0 <= k < |interns| && interns[k].idNumber == q.selectedId
  {
    FilterAtMostOne(interns, InReportBy(q));
    if exists k :: 0 <= k < |interns| && interns[k].idNumber == q.selectedId {
      var k :| 0 <= k < |interns| && interns[k].idNumber == q.selectedId;
      assert interns[k] in ReportPreview(q, interns);
    }
  }

  // ---------------------------------------------------------------------------
  // Row actions

  datatype Action = Edit | Delete | Report | Suspend | Expel | Reactivate

  /** The buttons of one row: Staff edits and deletes, everyone reports, and HR
      changes the status along Active → Suspended → Expelled, with a way back
      to Active from either of the last two. */
  function RowActions(role: Option<Role>, status: Status): (r: set<Action>)
    ensures Report in r
    ensures Edit in r <==> role == Some(Staff)
    ensures Delete in r <==> role == Some(Staff)
    ensures Suspend in r <==> role == Some(HR) && status == Active
    ensures Expel in r <==> role == Some(HR) && status == Suspended
    ensures Reactivate in r <==> role == Some(HR) && (status == Suspended || status == Expelled)
  {
    (if role == Some(Staff) then {Edit, Delete} else {})
    + {Report}
    + (if role == Some(HR) && status == Active then {Suspend} else {})
    + (if role == Some(HR) && status == Suspended then {Expel} else {})
    + (if role == Some(HR) && (status == Suspended || status == Expelled) then {Reactivate} else {})
  }

  /** The status a status button requests. */
  function Target(a: Action): Option<Status> {
    match a
    case Suspend => Some(Suspended)
    case Expel => Some(Expelled)
    case Reactivate => Some(Active)
    case _ => None
  }

  /** Every status button offered moves the intern to a different status, and
      a completed internship offers none. */
  lemma StatusButtonsMove(role: Option<Role>, status: Status, a: Action)
    requires a in RowActions(role, status) && Target(a).Some?
    ensures Target(a).value != status
    ensures role == Some(HR) && status != Completed
  {
  }

  // ---------------------------------------------------------------------------
  // Landing page

  datatype Page = InternsListPage | LandingPage

  /** After a login HR lands on the intern list and everyone else on the landing page. */
  function PageAfterLogin(role: Role): (r: Page)
    ensures r == InternsListPage <==> role == HR
  {
    if role == HR then InternsListPage else LandingPage
  }
}

=== FILE: intern_schema.dfy ===
/** The Intern document and its embedded Comment document, with the
    validation and defaults the Mongoose schema applies (Models/interns.js). */
module InternSchema {
  import opened Results

  datatype Status = Active | Suspended | Expelled | Completed

  /** The enum values as the schema spells them. */
  function StatusName(s: Status): string {
    match s
    case Active => "Active"
    case Suspended => "Suspended"
    case Expelled => "Expelled"
    case Completed => "Completed"
  }

  /** The enum check: a string is accepted exactly when it spells one of the
      four values. */
  function ParseStatus(s: string): (r: Option<Status>)
    ensures r.Some? ==> StatusName(r.value) == s
    ensures r.None? ==> forall st: Status :: StatusName(st) != s
  {
    if s == "Active" then Some(Active)
    else if s == "Suspended" then Some(Suspended)
    else if s == "Expelled" then Some(Expelled)
    else if s == "Completed" then Some(Completed)
    else None
  }

  /** Printing a status and checking it against the enum gives the status back. */
  lemma ParseStatusName(st: Status)
    ensures ParseStatus(StatusName(st)) == Some(st)
  {
  }

  /** A comment. `authorEmail` is written by the comment handler but is not a
      path of the comment schema. */
  datatype Comment = Comment(text: string, author: string, authorEmail: Option<string>, timestamp: int)

  predicate ValidComment(c: Comment) {
    c.text != "" && c.author != ""
  }

  predicate ValidComments(cs: seq<Comment>) {
    forall k :: 0 <= k < |cs| ==> ValidComment(cs[k])
  }

  /** A comment as the schema builds it: `timestamp` defaults to the creation time. */
  function NewComment(text: string, author: string, authorEmail: Option<string>, now: int): (c: Comment)
    requires text != "" && author != ""
    ensures ValidComment(c)
    ensures c.timestamp == now
    ensures c.text == text && c.author == author && c.authorEmail == authorEmail
  {
    Comment(text, author, authorEmail, now)
  }

  /** The required scalar paths of the schema. */
  datatype Path =
    | IdNumber | FullName | Institution | Department | MonthJoined | StartDate
    | EndDate | PhoneNumber | AmountPaid | ReceiptNumber | InstitutionSupervisor

  /** The required paths in schema order. */
  const RequiredPaths: seq<Path> := [
    IdNumber, FullName, Institution, Department, MonthJoined, StartDate,
    EndDate, PhoneNumber, AmountPaid, ReceiptNumber, InstitutionSupervisor
  ]

  lemma RequiredPathsComplete(p: Path)
    ensures p in RequiredPaths
  {
  }

  function PathName(p: Path): string {
    match p
    case IdNumber => "idNumber"
    case FullName => "fullName"
    case Institution => "institution"
    case Department => "department"
    case MonthJoined => "monthJoined"
    case StartDate => "startDate"
    case EndDate => "endDate"
    case PhoneNumber => "phoneNumber"
    case AmountPaid => "amountPaid"
    case ReceiptNumber => "receiptNumber"
    case InstitutionSupervisor => "institutionSupervisor"
  }

  /** An intern record. The three audit e-mails are written by the handlers but
      are not paths of the schema. */
  datatype Intern = Intern(
    idNumber: string,
    fullName: string,
    institution: string,
    department: string,
    monthJoined: string,
    startDate: string,
    endDate: string,
    phoneNumber: string,
    amountPaid: string,
    receiptNumber: string,
    institutionSupervisor: string,
    attachments: seq<string>,
    comments: seq<Comment>,
    profilePicture: string,
    status: Status,
    addedByStaffEmail: Option<string>,
    updatedByStaffEmail: Option<string>,
    statusChangedByHREmail: Option<string>)

  /** The value held at a required path. */
  function Get(i: Intern, p: Path): string {
    match p
    case IdNumber => i.idNumber
    case FullName => i.fullName
    case Institution => i.institution
    case Department => i.department
    case MonthJoined => i.monthJoined
    case StartDate => i.startDate
    case EndDate => i.endDate
    case PhoneNumber => i.phoneNumber
    case AmountPaid => i.amountPaid
    case ReceiptNumber => i.receiptNumber
    case InstitutionSupervisor => i.institutionSupervisor
  }

  /** Every required path holds a non-empty value and every comment is valid;
      the status is one of the enum values by construction. */
  predicate ValidIntern(i: Intern) {
    && (forall p: Path :: Get(i, p) != "")
    && ValidComments(i.comments)
  }

  /** The required paths a request body leaves absent or empty, in schema order. */
  function MissingRequired(body: map<string, string>): (r: seq<Path>)
    ensures forall p: Path :: p in r <==> !HasText(body, PathName(p))
  {
    forall p: Path ensures p in RequiredPaths { RequiredPathsComplete(p); }
    MissingAmong(RequiredPaths, body)
  }

  function MissingAmong(paths: seq<Path>, body: map<string, string>): (r: seq<Path>)
    ensures forall p :: p in r <==> p in paths && !HasText(body, PathName(p))
  {
    if |paths| == 0 then []
    else
      var rest := MissingAmong(paths[1..], body);
      assert forall p :: p in paths <==> p == paths[0] || p in paths[1..];
      if HasText(body, PathName(paths[0])) then rest else [paths[0]] + rest
  }

  /** One path that fails validation. */
  datatype Violation = Missing(path: Path) | StatusNotInEnum | InvalidComment

  function AsMissing(ps: seq<Path>): (r: seq<Violation>)
    ensures forall p :: Missing(p) in r <==> p in ps
    ensures StatusNotInEnum !in r && InvalidComment !in r
  {
    if |ps| == 0 then []
    else
      var rest := AsMissing(ps[1..]);
      assert forall p :: p in ps <==> p == ps[0] || p in ps[1..];
      [Missing(ps[0])] + rest
  }

  /** Every violation when a document is built from `body`: each missing
      required path in schema order, then the status when it is given but is
      not one of the enum values. */
  function ValidationErrors(body: map<string, string>): (r: seq<Violation>)
    ensures forall p: Path :: Missing(p) in r <==> !HasText(body, PathName(p))
    ensures StatusNotInEnum in r <==> "status" in body && ParseStatus(body["status"]).None?
    ensures InvalidComment !in r
  {
    AsMissing(MissingRequired(body))
      + (if "status" in body && ParseStatus(body["status"]).None? then [StatusNotInEnum] else [])
  }

  /** `new Intern(body)`: every required path is read from the body, and the
      list paths, the picture and the status take the schema defaults. */
  function FromBody(body: map<string, string>): (i: Intern)
    ensures forall p: Path :: Get(i, p) == Lookup(body, PathName(p)).GetOr("")
    ensures i.attachments == [] && i.comments == [] && i.profilePicture == ""
    ensures i.status == (if "status" in body then ParseStatus(body["status"]).GetOr(Active) else Active)
    ensures i.addedByStaffEmail.None? && i.updatedByStaffEmail.None? && i.statusChangedByHREmail.None?
  {
    Intern(
      Lookup(body, "idNumber").GetOr(""),
      Lookup(body, "fullName").GetOr(""),
      Lookup(body, "institution").GetOr(""),
      Lookup(body, "department").GetOr(""),
      Lookup(body, "monthJoined").GetOr(""),
      Lookup(body, "startDate").GetOr(""),
      Lookup(body, "endDate").GetOr(""),
      Lookup(body, "phoneNumber").GetOr(""),
      Lookup(body, "amountPaid").GetOr(""),
      Lookup(body, "receiptNumber").GetOr(""),
      Lookup(body, "institutionSupervisor").GetOr(""),
      [], [], "",
      if "status" in body then ParseStatus(body["status"]).GetOr(Active) else Active,
      None, None, None)
  }

  /** A body that passes validation builds a valid intern that carries every
      required value of the body and the status it names (Active by default). */
  lemma FromBodyValid(body: map<string, string>)
    requires ValidationErrors(body) == []
    ensures ValidIntern(FromBody(body))
    ensures forall p: Path :: HasText(body, PathName(p)) && Get(FromBody(body), p) == body[PathName(p)]
    ensures "status" in body ==> StatusName(FromBody(body).status) == body["status"]
  {
    forall p: Path ensures HasText(body, PathName(p)) {
      assert Missing(p) !in ValidationErrors(body);
    }
    if "status" in body {
      assert StatusNotInEnum !in ValidationErrors(body);
    }
  }

  /** A body that misses any one required path is reported, and the record it
      would build is invalid. */
  lemma MissingPathRejected(body: map<string, string>, p: Path)
    requires !HasText(body, PathName(p))
    ensures Missing(p) in ValidationErrors(body)
    ensures !ValidIntern(FromBody(body))
  {
  }
}

=== FILE: interplay.dfy ===
/** How the client's rules meet the server's transitions: a status button
    sends a status the server accepts and that changes the record, and the
    page a login lands on follows the role the server stored. */
module Interplay {
  import opened Results
  import opened InternSchema
  import opened UserSchema
  import opened Auth
  import opened Records
  import opened InternList

  /** Pressing any status button HR is shown sends a value inside the enum,
      so the server moves the intern to the button's target status, which
      differs from the current one. */
  lemma StatusButtonPatches(store: Store, id: string, a: Action, hrEmail: Option<string>)
    requires id in store
    requires a in RowActions(Some(HR), store[id].status) && Target(a).Some?
    ensures var r := PatchStatus(store, id, Some(StatusName(Target(a).value)), hrEmail);
            && r.reply.Ok?
            && r.store[id].status == Target(a).value
            && r.store[id].status != store[id].status
  {
    StatusButtonsMove(Some(HR), store[id].status, a);
    ParseStatusName(Target(a).value);
  }

  /** A magic-link login lands on the intern list exactly when the user who
      held the link is HR. */
  lemma LinkLoginLanding(users: seq<User>, token: string, now: int, session: string)
    requires VerifyMagicLink(users, Some(token), now, session).reply.Ok?
    ensures exists i :: && IsFirst(users, i, HasLiveLink(token, now))
                        && ((PageAfterLogin(VerifyMagicLink(users, Some(token), now, session).reply.value.user.role)
                               == InternsListPage) <==> users[i].role == HR)
  {
  }

  /** A session check lands on the intern list exactly when the session's
      holder is HR. */
  lemma SessionLanding(users: seq<User>, cookie: string, now: int)
    requires CheckSession(users, Some(cookie), now).Ok?
    ensures exists i :: && IsFirst(users, i, HasLiveSession(cookie, now))
                        && ((PageAfterLogin(CheckSession(users, Some(cookie), now).value.role) == InternsListPage)
                            <==> users[i].role == HR)
  {
  }
}

=== FILE: persistence.dfy ===
/** What the database keeps of an intern record as the schemas are written.
    Mongoose's strict mode drops every path a schema does not declare, and
    neither the intern schema nor the comment schema declares the audit
    e-mails the handlers write, although the client's report prints them. */
module Persistence {
  import opened Results
  import opened InternSchema
  import opened Records

  /** A comment as strict mode stores it. */
  function StrictComment(c: Comment): (r: Comment)
    ensures r.authorEmail.None?
    ensures r.text == c.text && r.author == c.author && r.timestamp == c.timestamp
  {
    c.(authorEmail := None)
  }

  /** A record as strict mode stores it: the declared paths survive, the
      audit e-mails do not. */
  function StrictRecord(i: Intern): (r: Intern)
    ensures r.addedByStaffEmail.None? && r.updatedByStaffEmail.None? && r.statusChangedByHREmail.None?
    ensures |r.comments| == |i.comments|
    ensures forall k :: 0 <= k < |r.comments| ==> r.comments[k] == StrictComment(i.comments[k])
    ensures forall p: Path :: Get(r, p) == Get(i, p)
    ensures r.attachments == i.attachments && r.profilePicture == i.profilePicture && r.status == i.status
  {
    var cs := seq(|i.comments|, k requires 0 <= k < |i.comments| => StrictComment(i.comments[k]));
    var r := i.(comments := cs, addedByStaffEmail := None, updatedByStaffEmail := None,
                statusChangedByHREmail := None);
    assert forall p: Path :: Get(r, p) == Get(i, p) by {
      forall p: Path ensures Get(r, p) == Get(i, p) {
        assert Get(r, p) == Get(i, p);
      }
    }
    r
  }

  /** As written, the creator's e-mail the create handler records is not in the
      stored document, so the report's "Added By" line never appears. */
  lemma CreatorEmailLostAsWritten(store: Store, body: map<string, string>, files: map<string, string>)
    requires Create(store, body, files).reply.Ok? && HasText(body, "staffEmail")
    ensures Create(store, body, files).reply.value.addedByStaffEmail == Some(body["staffEmail"])
    ensures StrictRecord(Create(store, body, files).reply.value).addedByStaffEmail.None?
  {
  }

  /** As written, the author e-mail of a new comment is not in the stored
      document either. */
  lemma CommentEmailLostAsWritten(store: Store, id: string, text: string, author: string, email: string, now: int)
    requires AddComment(store, id, Some(text), Some(author), Some(email), now).reply.Ok?
    ensures var i := AddComment(store, id, Some(text), Some(author), Some(email), now).reply.value;
            && i.comments[|i.comments| - 1].authorEmail == Some(email)
            && StrictRecord(i).comments[|i.comments| - 1].authorEmail.None?
  {
  }
}

=== FILE: record_properties.dfy ===
/** Properties of the intern record service: every handler keeps the
    collection valid, uploads and comments are only ever appended, an invalid
    status leaves the record as it was, and a deleted record is gone for
    every later request. */
module RecordProperties {
  import opened Results
  import opened InternSchema
  import opened Records

  // ---------------------------------------------------------------------------
  // The collection stays valid

  lemma CreateKeepsValidStore(store: Store, body: map<string, string>, files: map<string, string>)
    requires ValidStore(store)
    ensures ValidStore(Create(store, body, files).store)
  {
  }

  /** The record an update writes is valid: each profile path is either sent
      non-empty or kept, and the comments are either valid or kept. */
  lemma MergeValid(prior: Intern, body: map<string, string>, comments: Option<seq<Comment>>,
                   files: map<string, string>)
    requires ValidIntern(prior) && UpdateErrors(body, comments) == []
    ensures "status" in body ==> ParseStatus(body["status"]).Some?
    ensures ValidIntern(Merge(prior, body, comments, files))
  {
    assert "status" in body ==> StatusNotInEnum !in UpdateErrors(body, comments);
    var i := Merge(prior, body, comments, files);
    forall p: Path ensures Get(i, p) != "" {
      assert Missing(p) !in UpdateErrors(body, comments);
    }
    assert comments.Some? ==> InvalidComment !in UpdateErrors(body, comments);
  }

  lemma UpdateKeepsValidStore(store: Store, id: string, body: map<string, string>,
                              comments: Option<seq<Comment>>, files: map<string, string>)
    requires ValidStore(store)
    ensures ValidStore(Update(store, id, body, comments, files).store)
  {
    var r := Update(store, id, body, comments, files);
    if r.reply.Ok? {
      StoredCommentsPass(store, id, body, comments);
      MergeValid(store[id], body, comments, files);
      var i := r.reply.value;
      assert Get(i, IdNumber) == i.idNumber;
    }
  }

  /** On a valid collection, validating the stored comments again never fails,
      so the update validators report the same as for the supplied list. */
  lemma StoredCommentsPass(store: Store, id: string, body: map<string, string>, comments: Option<seq<Comment>>)
    requires ValidStore(store) && id in store
    ensures UpdateErrors(body, CheckedComments(store, id, comments)) == UpdateErrors(body, comments)
  {
    assert ValidIntern(store[id]);
  }

  /** A stored comment that breaks the schema is validated again by an update
      that sends no comments, so the update is refused with a 400. */
  lemma StoredInvalidCommentRefused(store: Store, id: string, body: map<string, string>, files: map<string, string>)
    requires id in store && !ValidComments(store[id].comments)
    ensures var r := Update(store, id, body, None, files);
            r.store == store && r.reply.Err? && r.reply.error.Invalid? && InvalidComment in r.reply.error.violations
  {
  }

  lemma PatchStatusKeepsValidStore(store: Store, id: string, status: Option<string>, hrEmail: Option<string>)
    requires ValidStore(store)
    ensures ValidStore(PatchStatus(store, id, status, hrEmail).store)
  {
    var r := PatchStatus(store, id, status, hrEmail);
    if r.reply.Ok? {
      var i := r.reply.value;
      assert forall p: Path :: Get(i, p) == Get(store[id], p);
    }
  }

  lemma DeleteKeepsValidStore(store: Store, id: string)
    requires ValidStore(store)
    ensures ValidStore(Delete(store, id).store)
  {
  }

  lemma AddCommentKeepsValidStore(store: Store, id: string, text: Option<string>, author: Option<string>,
                                  authorEmail: Option<string>, now: int)
    requires ValidStore(store)
    ensures ValidStore(AddComment(store, id, text, author, authorEmail, now).store)
  {
  }

  // ---------------------------------------------------------------------------
  // Create

  /** A second creation with an id already taken is refused and leaves the
      first record as it was. */
  lemma DuplicateCreateKeepsOriginal(store: Store, body: map<string, string>, body2: map<string, string>,
                                     files: map<string, string>, files2: map<string, string>)
    requires Create(store, body, files).reply.Ok?
    requires ValidationErrors(body2) == [] && body2["idNumber"] == body["idNumber"]
    ensures var first := Create(store, body, files);
            Create(first.store, body2, files2) == Outcome(first.store, Err(DuplicateKey))
  {
  }

  /** A created record appears in the list of its department. */
  lemma CreatedIsListed(store: Store, body: map<string, string>, files: map<string, string>)
    requires Create(store, body, files).reply.Ok?
    ensures var r := Create(store, body, files);
            var i := r.reply.value;
            i.idNumber in List(r.store, Some(i.department)) && List(r.store, Some(i.department))[i.idNumber] == i
  {
    var i := Create(store, body, files).reply.value;
    assert Get(i, Department) != "";
  }

  // ---------------------------------------------------------------------------
  // Update

  /** Uploads are only ever appended: the old attachments are a prefix of the
      new list, followed by this request's uploads in field order. */
  lemma UpdateAppendsAttachments(store: Store, id: string, body: map<string, string>,
                                 comments: Option<seq<Comment>>, files: map<string, string>)
    requires Update(store, id, body, comments, files).reply.Ok?
    ensures var i := Update(store, id, body, comments, files).reply.value;
            && store[id].attachments <= i.attachments
            && |i.attachments| >= |store[id].attachments|
            && i.attachments[|store[id].attachments|..] == Collect(AttachmentFields, files)
  {
    var i := Update(store, id, body, comments, files).reply.value;
    assert i.attachments == store[id].attachments + Collect(AttachmentFields, files);
  }

  /** An update of an unknown id creates nothing. */
  lemma UpdateUnknownCreatesNothing(store: Store, id: string, body: map<string, string>,
                                    comments: Option<seq<Comment>>, files: map<string, string>)
    requires id !in store
    ensures Update(store, id, body, comments, files).store == store
    ensures Update(store, id, body, comments, files).reply.Err?
  {
  }

  /** The comments sent for an unknown id are never looked at: the reply
      depends on the body alone. */
  lemma UpdateUnknownIgnoresComments(store: Store, id: string, body: map<string, string>,
                                     comments: Option<seq<Comment>>, files: map<string, string>)
    requires id !in store
    ensures Update(store, id, body, comments, files) == Update(store, id, body, None, map[])
  {
  }

  /** An update whose body does not change the id keeps the set of ids. */
  lemma UpdateKeepsIds(store: Store, id: string, body: map<string, string>,
                       comments: Option<seq<Comment>>, files: map<string, string>)
    requires ValidStore(store)
    requires "idNumber" in body ==> body["idNumber"] == id
    ensures Update(store, id, body, comments, files).store.Keys == store.Keys
  {
    var r := Update(store, id, body, comments, files);
    if r.reply.Ok? {
      assert Get(r.reply.value, IdNumber) == id;
    }
  }

  // ---------------------------------------------------------------------------
  // Status

  /** A status outside the enum leaves a suspended intern suspended. */
  lemma BogusStatusKeepsSuspension(store: Store, id: string, hrEmail: Option<string>, hrEmail2: Option<string>)
    requires id in store
    ensures var s := PatchStatus(store, id, Some("Suspended"), hrEmail).store;
            && s[id].status == Suspended
            && PatchStatus(s, id, Some("Bogus"), hrEmail2) == Outcome(s, Err(InvalidStatus))
  {
  }

  /** Setting a status twice is the same as setting it once (the HR e-mail of
      the second request aside). */
  lemma PatchStatusIdempotent(store: Store, id: string, status: string, hrEmail: Option<string>)
    requires PatchStatus(store, id, Some(status), hrEmail).reply.Ok?
    ensures var once := PatchStatus(store, id, Some(status), hrEmail);
            PatchStatus(once.store, id, Some(status), hrEmail) == once
  {
  }

  // ---------------------------------------------------------------------------
  // Delete

  /** Once deleted, a record is not found by any later request. */
  lemma DeletedIsGone(store: Store, id: string, body: map<string, string>, comments: Option<seq<Comment>>,
                      files: map<string, string>, status: string, text: string, author: string, email: string,
                      now: int)
    requires id in store
    requires UpdateErrors(body, None) == [] && ParseStatus(status).Some?
    requires text != "" && author != "" && email != ""
    ensures var s := Delete(store, id).store;
            && id !in List(s, None)
            && Delete(s, id).reply == Err(NotFound)
            && Update(s, id, body, comments, files).reply == Err(NotFound)
            && PatchStatus(s, id, Some(status), None).reply == Err(NotFound)
            && AddComment(s, id, Some(text), Some(author), Some(email), now).reply == Err(NotFound)
  {
  }

  // ---------------------------------------------------------------------------
  // Comments

  /** Two comments added one after the other are both kept, in order, after
      the earlier ones. */
  lemma TwoCommentsInOrder(store: Store, id: string, t1: string, a1: string, e1: string, n1: int,
                           t2: string, a2: string, e2: string, n2: int)
    requires ValidStore(store) && id in store
    requires t1 != "" && a1 != "" && e1 != "" && t2 != "" && a2 != "" && e2 != ""
    ensures var s1 := AddComment(store, id, Some(t1), Some(a1), Some(e1), n1).store;
            var s2 := AddComment(s1, id, Some(t2), Some(a2), Some(e2), n2).store;
            s2[id].comments == store[id].comments + [Comment(t1, a1, Some(e1), n1), Comment(t2, a2, Some(e2), n2)]
  {
    var s1 := AddComment(store, id, Some(t1), Some(a1), Some(e1), n1).store;
    AddCommentKeepsValidStore(store, id, Some(t1), Some(a1), Some(e1), n1);
    var s2 := AddComment(s1, id, Some(t2), Some(a2), Some(e2), n2).store;
    assert s2[id].comments == (store[id].comments + [Comment(t1, a1, Some(e1), n1)]) + [Comment(t2, a2, Some(e2), n2)];
  }

  /** Comments are only ever appended: earlier comments are a prefix. */
  lemma CommentsAppendOnly(store: Store, id: string, text: Option<string>, author: Option<string>,
                           authorEmail: Option<string>, now: int)
    requires AddComment(store, id, text, author, authorEmail, now).reply.Ok?
    ensures var i := AddComment(store, id, text, author, authorEmail, now).reply.value;
            store[id].comments <= i.comments && |i.comments| == |store[id].comments| + 1
  {
  }

  // ---------------------------------------------------------------------------
  // Audit trail

  /** The record a creation stores names the staff member who added it, the
      record an update stores names the one who changed it, and a status
      change names the HR member who made it. */
  lemma AuditTrailRecorded(store: Store, body: map<string, string>, files: map<string, string>,
                           id: string, body2: map<string, string>, comments: Option<seq<Comment>>,
                           status: string, hrEmail: string)
    requires Create(store, body, files).reply.Ok? && HasText(body, "staffEmail")
    requires Update(store, id, body2, comments, files).reply.Ok? && HasText(body2, "staffEmail")
    requires PatchStatus(store, id, Some(status), Some(hrEmail)).reply.Ok? && hrEmail != ""
    ensures Create(store, body, files).store[body["idNumber"]].addedByStaffEmail == Some(body["staffEmail"])
    ensures Update(store, id, body2, comments, files).reply.value.updatedByStaffEmail == Some(body2["staffEmail"])
    ensures PatchStatus(store, id, Some(status), Some(hrEmail)).store[id].statusChangedByHREmail == Some(hrEmail)
  {
  }
}

=== FILE: records.dfy ===
/** The intern record service (server.js:382-605): create, list, update,
    status change, delete and comment, each a transition of the collection of
    intern records keyed by their unique `idNumber`. Uploaded files are
    already stored when a handler runs, so they enter as a map from form
    field to stored path; deleting files from disk is reduced to the list of
    paths a deletion releases. */
module Records {
  import opened Results
  import opened Seqs
  import opened InternSchema

  /** The Intern collection. `idNumber` has a unique index, so it is the key. */
  type Store = map<string, Intern>

  /** Every record sits under its own `idNumber` and satisfies the schema. */
  predicate ValidStore(store: Store) {
    forall k :: k in store ==> store[k].idNumber == k && ValidIntern(store[k])
  }

  datatype RecordError =
    | Invalid(violations: seq<Violation>)   // 400 'Validation failed'
    | InvalidStatus                         // 400 'Invalid status provided.'
    | CommentFieldsMissing                  // 400 'Comment text, author, and author email are required.'
    | NotFound                              // 404 'Intern not found'
    | DuplicateKey                          // 500, the unique index on idNumber
    | SaveRejected                          // 500, the document failed validation on save

  function HttpStatus(e: RecordError): int {
    match e
    case Invalid(_) => 400
    case InvalidStatus => 400
    case CommentFieldsMissing => 400
    case NotFound => 404
    case DuplicateKey => 500
    case SaveRejected => 500
  }

  /** The collection after a request, and the reply. */
  datatype Outcome<T> = Outcome(store: Store, reply: Result<T, RecordError>)

  // ---------------------------------------------------------------------------
  // Uploads

  /** The attachment fields, in the order their files are appended. */
  const AttachmentFields: seq<string> := ["letter", "idCopy", "acceptanceLetter", "receiptCopy"]

  /** The number of `fields` that carry an upload. */
  function CountPresent(fields: seq<string>, files: map<string, string>): nat {
    if |fields| == 0 then 0
    else (if fields[0] in files then 1 else 0) + CountPresent(fields[1..], files)
  }

  /** The stored paths of the uploads of `fields`. */
  function Uploads(fields: seq<string>, files: map<string, string>): set<string> {
    set k | 0 <= k < |fields| && fields[k] in files :: files[fields[k]]
  }

  /** The stored paths of the uploads in `fields`, in field order, skipping the
      fields without a file. */
  function Collect(fields: seq<string>, files: map<string, string>): (r: seq<string>)
    ensures |r| == CountPresent(fields, files)
    ensures forall j :: 0 <= j < |r| ==> r[j] in Uploads(fields, files)
  {
    if |fields| == 0 then []
    else
      UploadsTail(fields, files);
      (if fields[0] in files then [files[fields[0]]] else []) + Collect(fields[1..], files)
  }

  lemma UploadsTail(fields: seq<string>, files: map<string, string>)
    requires |fields| > 0
    ensures Uploads(fields[1..], files) <= Uploads(fields, files)
    ensures fields[0] in files ==> files[fields[0]] in Uploads(fields, files)
  {
    forall x | x in Uploads(fields[1..], files) ensures x in Uploads(fields, files) {
      var k :| 0 <= k < |fields[1..]| && fields[1..][k] in files && x == files[fields[1..][k]];
      assert fields[k + 1] == fields[1..][k];
    }
  }

  lemma CountPrefixCons(fields: seq<string>, files: map<string, string>, k: int)
    requires 1 <= k <= |fields|
    ensures CountPresent(fields[..k], files)
         == (if fields[0] in files then 1 else 0) + CountPresent(fields[1..][..k - 1], files)
  {
    var pre := fields[..k];
    assert pre[0] == fields[0] && pre[1..] == fields[1..][..k - 1];
  }

  /** The upload of a field lands after the uploads of every earlier field
      that has one, so the collected order is the field order. */
  lemma {:induction false} CollectOrder(fields: seq<string>, files: map<string, string>, k: int)
    requires 0 <= k < |fields| && fields[k] in files
    ensures CountPresent(fields[..k], files) < |Collect(fields, files)|
    ensures Collect(fields, files)[CountPresent(fields[..k], files)] == files[fields[k]]
    decreases |fields|
  {
    var head := if fields[0] in files then [files[fields[0]]] else [];
    var rest := Collect(fields[1..], files);
    assert Collect(fields, files) == head + rest;
    if k == 0 {
      assert fields[..0] == [];
    } else {
      CollectOrder(fields[1..], files, k - 1);
      CountPrefixCons(fields, files, k);
      assert fields[1..][k - 1] == fields[k];
    }
  }

  /** With every attachment uploaded, the paths are in the fixed order
      letter, idCopy, acceptanceLetter, receiptCopy. */
  lemma CollectAllFour(files: map<string, string>)
    requires forall f :: f in AttachmentFields ==> f in files
    ensures Collect(AttachmentFields, files)
         == [files["letter"], files["idCopy"], files["acceptanceLetter"], files["receiptCopy"]]
  {
    var fs := AttachmentFields;
    var a, b, c, d := files["letter"], files["idCopy"], files["acceptanceLetter"], files["receiptCopy"];
    assert fs[3..] == ["receiptCopy"] && fs[3..][1..] == [];
    assert Collect(fs[3..], files) == [d];
    assert fs[2..] == ["acceptanceLetter"] + fs[3..] && fs[2..][1..] == fs[3..];
    assert Collect(fs[2..], files) == [c] + [d];
    assert fs[1..] == ["idCopy"] + fs[2..] && fs[1..][1..] == fs[2..];
    assert Collect(fs[1..], files) == [b] + [c, d];
    assert fs[0] == "letter";
    assert Collect(fs, files) == [a] + [b, c, d];
  }

  /** The stored path of the profile picture upload, or '' without one. */
  function Picture(files: map<string, string>): string {
    if "profilePicture" in files then files["profilePicture"] else ""
  }

  /** The audit e-mail a handler writes when `staffEmail` is truthy. */
  function StaffEmail(body: map<string, string>): (r: Option<string>)
    ensures r.Some? <==> HasText(body, "staffEmail")
    ensures r.Some? ==> r.value == body["staffEmail"]
  {
    if HasText(body, "staffEmail") then Some(body["staffEmail"]) else None
  }

  // ---------------------------------------------------------------------------
  // POST /interns

  /** The record a creation builds from the body and the uploads. */
  function Built(body: map<string, string>, files: map<string, string>): (i: Intern)
    ensures forall p: Path :: Get(i, p) == Get(FromBody(body), p)
    ensures i.status == FromBody(body).status && i.comments == []
    ensures i.updatedByStaffEmail.None? && i.statusChangedByHREmail.None?
  {
    var f := FromBody(body);
    var i := f.(attachments := Collect(AttachmentFields, files),
                profilePicture := Picture(files),
                addedByStaffEmail := StaffEmail(body));
    assert forall p: Path :: Get(i, p) == Get(f, p) by {
      forall p: Path ensures Get(i, p) == Get(f, p) {
        assert Get(i, p) == Get(f, p);
      }
    }
    i
  }

  /** Creates a record. The document is validated before it is saved, so an
      invalid body is reported even when its id is taken; a taken id is then
      refused by the unique index, which the handler reports as a 500. */
  function Create(store: Store, body: map<string, string>, files: map<string, string>): (r: Outcome<Intern>)
    ensures ValidationErrors(body) != [] ==> r == Outcome(store, Err(Invalid(ValidationErrors(body))))
    ensures ValidationErrors(body) == [] && body["idNumber"] in store ==> r == Outcome(store, Err(DuplicateKey))
    ensures r.reply.Ok? <==> ValidationErrors(body) == [] && body["idNumber"] !in store
    ensures r.reply.Ok? ==>
              var i := r.reply.value;
              && r.store == store[body["idNumber"] := i]
              && i.idNumber == body["idNumber"]
              && ValidIntern(i)
              && (forall p: Path :: Get(i, p) == body[PathName(p)])
              && i.attachments == Collect(AttachmentFields, files)
              && i.profilePicture == Picture(files)
              && i.comments == []
              && i.status == (if "status" in body then ParseStatus(body["status"]).value else Active)
              && i.addedByStaffEmail == StaffEmail(body)
              && i.updatedByStaffEmail.None? && i.statusChangedByHREmail.None?
  {
    var errors := ValidationErrors(body);
    if errors != [] then Outcome(store, Err(Invalid(errors)))
    else
      FromBodyValid(body);
      var i := Built(body, files);
      if i.idNumber in store then Outcome(store, Err(DuplicateKey))
      else Outcome(store[i.idNumber := i], Ok(i))
  }

  // ---------------------------------------------------------------------------
  // GET /interns

  /** The records of the queried department, or every record when the query
      has no department. */
  function List(store: Store, department: Option<string>): (r: Store)
    ensures forall k :: k in r <==> k in store && (Truthy(department) ==> store[k].department == department.value)
    ensures forall k :: k in r ==> r[k] == store[k]
  {
    if Truthy(department) then map k | k in store && store[k].department == department.value :: store[k]
    else store
  }

  // ---------------------------------------------------------------------------
  // PUT /interns/:idNumber

  /** Every profile path of the body overrides the stored value; the rest of
      the record is kept. */
  function Overlay(prior: Intern, body: map<string, string>): (i: Intern)
    ensures forall p: Path :: Get(i, p) == (if PathName(p) in body then body[PathName(p)] else Get(prior, p))
    ensures i.attachments == prior.attachments && i.comments == prior.comments
    ensures i.profilePicture == prior.profilePicture && i.status == prior.status
    ensures i.addedByStaffEmail == prior.addedByStaffEmail && i.updatedByStaffEmail == prior.updatedByStaffEmail
    ensures i.statusChangedByHREmail == prior.statusChangedByHREmail
  {
    prior.(
      idNumber := Lookup(body, "idNumber").GetOr(prior.idNumber),
      fullName := Lookup(body, "fullName").GetOr(prior.fullName),
      institution := Lookup(body, "institution").GetOr(prior.institution),
      department := Lookup(body, "department").GetOr(prior.department),
      monthJoined := Lookup(body, "monthJoined").GetOr(prior.monthJoined),
      startDate := Lookup(body, "startDate").GetOr(prior.startDate),
      endDate := Lookup(body, "endDate").GetOr(prior.endDate),
      phoneNumber := Lookup(body, "phoneNumber").GetOr(prior.phoneNumber),
      amountPaid := Lookup(body, "amountPaid").GetOr(prior.amountPaid),
      receiptNumber := Lookup(body, "receiptNumber").GetOr(prior.receiptNumber),
      institutionSupervisor := Lookup(body, "institutionSupervisor").GetOr(prior.institutionSupervisor))
  }

  /** The paths among `paths` that the body sends as the empty string. */
  function SentEmpty(paths: seq<Path>, body: map<string, string>): (r: seq<Path>)
    ensures forall p :: p in r <==> p in paths && PathName(p) in body && body[PathName(p)] == ""
  {
    if |paths| == 0 then []
    else
      var rest := SentEmpty(paths[1..], body);
      assert forall p :: p in paths <==> p == paths[0] || p in paths[1..];
      if PathName(paths[0]) in body && body[PathName(paths[0])] == "" then [paths[0]] + rest else rest
  }

  /** What the update validators report: they check only the paths the update
      sets, so a profile path fails when it is sent empty, the status when it
      is sent outside the enum, and a comment list when one of its comments is
      invalid. */
  function UpdateErrors(body: map<string, string>, comments: Option<seq<Comment>>): (r: seq<Violation>)
    ensures forall p: Path :: Missing(p) in r <==> PathName(p) in body && body[PathName(p)] == ""
    ensures StatusNotInEnum in r <==> "status" in body && ParseStatus(body["status"]).None?
    ensures InvalidComment in r <==> comments.Some? && !ValidComments(comments.value)
  {
    forall p: Path ensures p in RequiredPaths { RequiredPathsComplete(p); }
    AsMissing(SentEmpty(RequiredPaths, body))
      + (if "status" in body && ParseStatus(body["status"]).None? then [StatusNotInEnum] else [])
      + (if comments.Some? && !ValidComments(comments.value) then [InvalidComment] else [])
  }

  /** Everything an update writes besides the profile paths: `base` with the
      old attachments followed by the new uploads, the new picture when one
      was uploaded, the supplied comments or else the old ones, the body's
      status, and the editor's e-mail when one is given. */
  function Stamp(base: Intern, body: map<string, string>, comments: Option<seq<Comment>>,
                 files: map<string, string>): (i: Intern)
    requires "status" in body ==> ParseStatus(body["status"]).Some?
    ensures forall p: Path :: Get(i, p) == Get(base, p)
    ensures base.attachments <= i.attachments
    ensures i.attachments[|base.attachments|..] == Collect(AttachmentFields, files)
    ensures Picture(files) != "" ==> i.profilePicture == Picture(files)
    ensures Picture(files) == "" ==> i.profilePicture == base.profilePicture
    ensures comments.Some? ==> i.comments == comments.value
    ensures comments.None? ==> i.comments == base.comments
    ensures "status" in body ==> StatusName(i.status) == body["status"]
    ensures "status" !in body ==> i.status == base.status
    ensures StaffEmail(body).Some? ==> i.updatedByStaffEmail == StaffEmail(body)
    ensures StaffEmail(body).None? ==> i.updatedByStaffEmail == base.updatedByStaffEmail
    ensures i.addedByStaffEmail == base.addedByStaffEmail && i.statusChangedByHREmail == base.statusChangedByHREmail
  {
    var i := base.(
      attachments := base.attachments + Collect(AttachmentFields, files),
      profilePicture := if Picture(files) != "" then Picture(files) else base.profilePicture,
      comments := if comments.Some? then comments.value else base.comments,
      status := if "status" in body then ParseStatus(body["status"]).value else base.status,
      updatedByStaffEmail := if StaffEmail(body).Some? then StaffEmail(body) else base.updatedByStaffEmail);
    assert i.attachments[|base.attachments|..] == Collect(AttachmentFields, files);
    i
  }

  /** The record an update writes over `prior`: the body's profile paths
      overlaid, then the rest stamped. */
  function Merge(prior: Intern, body: map<string, string>, comments: Option<seq<Comment>>,
                 files: map<string, string>): (i: Intern)
    requires "status" in body ==> ParseStatus(body["status"]).Some?
    ensures forall p: Path :: Get(i, p) == (if PathName(p) in body then body[PathName(p)] else Get(prior, p))
    ensures prior.attachments <= i.attachments
    ensures i.attachments[|prior.attachments|..] == Collect(AttachmentFields, files)
    ensures Picture(files) != "" ==> i.profilePicture == Picture(files)
    ensures Picture(files) == "" ==> i.profilePicture == prior.profilePicture
    ensures comments.Some? ==> i.comments == comments.value
    ensures comments.None? ==> i.comments == prior.comments
    ensures "status" in body ==> StatusName(i.status) == body["status"]
    ensures "status" !in body ==> i.status == prior.status
    ensures StaffEmail(body).Some? ==> i.updatedByStaffEmail == StaffEmail(body)
    ensures StaffEmail(body).None? ==> i.updatedByStaffEmail == prior.updatedByStaffEmail
    ensures i.addedByStaffEmail == prior.addedByStaffEmail && i.statusChangedByHREmail == prior.statusChangedByHREmail
  {
    Stamp(Overlay(prior, body), body, comments, files)
  }

  /** The comments the update validators see. For a known id they are the
      supplied list, or else the stored list the handler copies into the
      update, which is validated again. For an unknown id the handler has
      already set the list to `[]`, so the supplied comments are never checked. */
  function CheckedComments(store: Store, id: string, comments: Option<seq<Comment>>): (c: Option<seq<Comment>>)
    ensures c.Some?
    ensures id in store && comments.Some? ==> c == comments
    ensures id in store && comments.None? ==> c.value == store[id].comments
    ensures id !in store ==> ValidComments(c.value) && |c.value| == 0
  {
    if id !in store then Some([])
    else if comments.Some? then comments
    else Some(store[id].comments)
  }

  /** Updates the record stored under `id`. The update validators run before
      the record is looked up, so a 400 for a path sent empty or a status
      outside the enum wins over a 404. For an unknown id the handler has
      replaced the comment list by `[]`, so invalid comments alone give a 404.
      An `idNumber` in the body is written like every other path, so the
      record moves to its new id, and an id that another record holds is
      refused by the unique index. `comments` is `None` when the body carries
      no (or a falsy) comment list. */
  function Update(store: Store, id: string, body: map<string, string>, comments: Option<seq<Comment>>,
                  files: map<string, string>): (r: Outcome<Intern>)
    ensures var errors := UpdateErrors(body, CheckedComments(store, id, comments));
            errors != [] ==> r == Outcome(store, Err(Invalid(errors)))
    ensures id !in store && UpdateErrors(body, None) != [] ==>
              r == Outcome(store, Err(Invalid(UpdateErrors(body, None))))
    ensures id !in store && UpdateErrors(body, None) == [] ==> r == Outcome(store, Err(NotFound))
    ensures r.reply.Err? ==> r.store == store
    ensures r.reply.Ok? ==>
              && id in store
              && r.reply.value == Merge(store[id], body, comments, files)
              && r.store == (store - {id})[r.reply.value.idNumber := r.reply.value]
    ensures r.reply.Ok? <==>
              && id in store && UpdateErrors(body, CheckedComments(store, id, comments)) == []
              && var moved := Lookup(body, "idNumber").GetOr(store[id].idNumber);
                 moved == id || moved !in store
    ensures r.reply == Err(DuplicateKey) <==>
              && id in store && UpdateErrors(body, CheckedComments(store, id, comments)) == []
              && var moved := Lookup(body, "idNumber").GetOr(store[id].idNumber);
                 moved != id && moved in store
  {
    var errors := UpdateErrors(body, CheckedComments(store, id, comments));
    assert id !in store ==> errors == UpdateErrors(body, None);
    if errors != [] then Outcome(store, Err(Invalid(errors)))
    else if id !in store then Outcome(store, Err(NotFound))
    else
      assert "status" in body ==> StatusNotInEnum !in errors;
      var i := Merge(store[id], body, comments, files);
      assert Get(i, IdNumber) == Lookup(body, "idNumber").GetOr(store[id].idNumber);
      if i.idNumber != id && i.idNumber in store then Outcome(store, Err(DuplicateKey))
      else Outcome((store - {id})[i.idNumber := i], Ok(i))
  }

  // ---------------------------------------------------------------------------
  // PATCH /interns/:idNumber/status

  /** Sets the status of the record under `id`. The value is checked against
      the enum before the record is looked up. Only the status changes, and the
      HR e-mail is recorded when one is given. */
  function PatchStatus(store: Store, id: string, status: Option<string>, hrEmail: Option<string>)
    : (r: Outcome<Intern>)
    ensures (status.None? || ParseStatus(status.value).None?) ==> r == Outcome(store, Err(InvalidStatus))
    ensures status.Some? && ParseStatus(status.value).Some? && id !in store ==> r == Outcome(store, Err(NotFound))
    ensures r.reply.Ok? <==> status.Some? && ParseStatus(status.value).Some? && id in store
    ensures r.reply.Ok? ==>
              var i := r.reply.value;
              && r.store == store[id := i]
              && StatusName(i.status) == status.value
              && i.statusChangedByHREmail == (if Truthy(hrEmail) then hrEmail else store[id].statusChangedByHREmail)
              && i.(status := store[id].status, statusChangedByHREmail := store[id].statusChangedByHREmail) == store[id]
  {
    if status.None? || ParseStatus(status.value).None? then Outcome(store, Err(InvalidStatus))
    else if id !in store then Outcome(store, Err(NotFound))
    else
      var prior := store[id];
      var i := prior.(status := ParseStatus(status.value).value,
                      statusChangedByHREmail := if Truthy(hrEmail) then hrEmail else prior.statusChangedByHREmail);
      Outcome(store[id := i], Ok(i))
  }

  // ---------------------------------------------------------------------------
  // DELETE /interns/:idNumber

  /** The stored files a record holds: its attachments, then its picture when
      it has one. Deleting the record unlinks each of them. */
  function Blobs(i: Intern): (r: seq<string>)
    ensures forall k :: 0 <= k < |i.attachments| ==> i.attachments[k] in r
    ensures i.profilePicture != "" ==> i.profilePicture in r
    ensures forall k :: 0 <= k < |r| ==> r[k] in i.attachments || r[k] == i.profilePicture
  {
    i.attachments + (if i.profilePicture != "" then [i.profilePicture] else [])
  }

  /** Removes the record under `id` and answers with the files to release. */
  function Delete(store: Store, id: string): (r: Outcome<seq<string>>)
    ensures id !in store ==> r == Outcome(store, Err(NotFound))
    ensures id in store ==> r.store.Keys == store.Keys - {id} && r.reply == Ok(Blobs(store[id]))
    ensures forall k :: k in r.store ==> k in store && r.store[k] == store[k]
  {
    if id !in store then Outcome(store, Err(NotFound))
    else Outcome(store - {id}, Ok(Blobs(store[id])))
  }

  // ---------------------------------------------------------------------------
  // POST /interns/:idNumber/comments

  /** Appends a comment stamped with `now` to the record under `id`. The whole
      record is validated when it is saved, and any failure is a 500. */
  function AddComment(store: Store, id: string, text: Option<string>, author: Option<string>,
                      authorEmail: Option<string>, now: int): (r: Outcome<Intern>)
    ensures !(Truthy(text) && Truthy(author) && Truthy(authorEmail)) ==> r == Outcome(store, Err(CommentFieldsMissing))
    ensures Truthy(text) && Truthy(author) && Truthy(authorEmail) && id !in store ==> r == Outcome(store, Err(NotFound))
    ensures r.reply.Err? ==> r.store == store
    ensures r.reply.Ok? ==>
              var i := r.reply.value;
              && id in store
              && r.store == store[id := i]
              && i.comments == store[id].comments + [Comment(text.value, author.value, authorEmail, now)]
              && i.(comments := store[id].comments) == store[id]
    ensures ValidStore(store) && Truthy(text) && Truthy(author) && Truthy(authorEmail) && id in store ==> r.reply.Ok?
  {
    if !(Truthy(text) && Truthy(author) && Truthy(authorEmail)) then Outcome(store, Err(CommentFieldsMissing))
    else if id !in store then Outcome(store, Err(NotFound))
    else
      var prior := store[id];
      var c := NewComment(text.value, author.value, authorEmail, now);
      var i := prior.(comments := prior.comments + [c]);
      assert forall p: Path :: Get(i, p) == Get(prior, p);
      if !ValidIntern(i) then Outcome(store, Err(SaveRejected))
      else Outcome(store[id := i], Ok(i))
  }
}

=== FILE: results.dfy ===
/** Optional values and success/failure results shared by every module of the model.
    `None` stands for a JavaScript `null` or `undefined`. */
module Results {

  datatype Option<+T> = None | Some(value: T) {

    /** The wrapped value, or `default` when there is none. */
    function GetOr(default: T): T {
      match this
      case Some(v) => v
      case None => default
    }
  }

  datatype Result<+T, +E> = Ok(value: T) | Err(error: E)

  /** JavaScript truthiness of an optional string: present and not the empty string. */
  predicate Truthy(s: Option<string>) {
    s.Some? && s.value != ""
  }

  /** JavaScript truthiness of the value stored under `key` in a request body. */
  predicate HasText(body: map<string, string>, key: string) {
    key in body && body[key] != ""
  }

  /** The body entry under `key` as an optional value (`undefined` when absent). */
  function Lookup(body: map<string, string>, key: string): (r: Option<string>)
    ensures r.Some? <==> key in body
    ensures r.Some? ==> r.value == body[key]
  {
    if key in body then Some(body[key]) else None
  }
}

=== FILE: seqs.dfy ===
/** Sequence operations behind the collection queries: `Array.prototype.filter`,
    Mongo's `findOne` (first match in natural order) and `new Set(...)`. */
module Seqs {
  import opened Results

  /** `a` is obtained from `b` by deleting elements, keeping the order of the rest. */
  predicate IsSubseq<T(==)>(a: seq<T>, b: seq<T>)
    decreases |b|
  {
    if |a| == 0 then true
    else if |b| == 0 then false
    else if a[0] == b[0] then IsSubseq(a[1..], b[1..])
    else IsSubseq(a, b[1..])
  }

  /** `Array.prototype.filter`. */
  function Filter<T(==)>(s: seq<T>, p: T -> bool): (r: seq<T>)
    ensures |r| <= |s|
    ensures forall i :: 0 <= i < |r| ==> p(r[i])
    ensures forall i :: 0 <= i < |r| ==> r[i] in s
    ensures forall i :: 0 <= i < |s| && p(s[i]) ==> s[i] in r
    ensures IsSubseq(r, s)
    ensures (forall i :: 0 <= i < |s| ==> p(s[i])) ==> r == s
  {
    if |s| == 0 then []
    else
      var rest := Filter(s[1..], p);
      if p(s[0]) then
        assert ([s[0]] + rest)[1..] == rest;
        assert s == [s[0]] + s[1..];
        [s[0]] + rest
      else
        assert |rest| > 0 ==> rest[0] != s[0];
        rest
  }

  /** Index of the first element satisfying `p`, as Mongo's `findOne` returns
      the first matching document in natural order. */
  function FindFirst<T>(s: seq<T>, p: T -> bool): (r: Option<nat>)
    ensures r.Some? ==> r.value < |s| && p(s[r.value])
    ensures r.Some? ==> forall j :: 0 <= j < r.value ==> !p(s[j])
    ensures r.None? <==> forall j :: 0 <= j < |s| ==> !p(s[j])
  {
    if |s| == 0 then None
    else if p(s[0]) then Some(0)
    else
      match FindFirst(s[1..], p)
      case None => None
      case Some(k) => Some(k + 1)
  }

  predicate NoDup<T(==)>(s: seq<T>) {
    forall i, j :: 0 <= i < j < |s| ==> s[i] != s[j]
  }

  /** The position of the first occurrence of `x` in `s`. */
  function FirstIndex<T(==)>(s: seq<T>, x: T): (k: nat)
    requires x in s
    ensures k < |s| && s[k] == x
    ensures forall j :: 0 <= j < k ==> s[j] != x
  {
    if s[0] == x then 0 else 1 + FirstIndex(s[1..], x)
  }

  /** Appending an element does not move a first occurrence already present. */
  lemma FirstIndexAppend<T>(s: seq<T>, y: T, x: T)
    requires x in s
    ensures FirstIndex(s + [y], x) == FirstIndex(s, x)
  {
    var a, b := FirstIndex(s + [y], x), FirstIndex(s, x);
    assert (s + [y])[b] == x;
    assert a <= b;
    assert s[a] == x;
  }

  /** `[...new Set(s)]`: the distinct elements, each at its first occurrence. */
  function Dedup<T(==)>(s: seq<T>): (r: seq<T>)
    ensures forall i :: 0 <= i < |r| ==> r[i] in s
    ensures forall i :: 0 <= i < |s| ==> s[i] in r
    ensures NoDup(r)
    ensures IsSubseq(r, s)
    decreases |s|
  {
    if |s| == 0 then []
    else
      var init := s[..|s| - 1];
      var last := s[|s| - 1];
      var rest := Dedup(init);
      assert s == init + [last];
      SubseqExtend(rest, init, last);
      if last in rest then rest
      else
        SubseqAppend(rest, init, last);
        rest + [last]
  }

  /** `filter` keeps every element satisfying the predicate as often as it
      occurs, and no other. */
  lemma {:induction false} FilterMultiplicity<T>(s: seq<T>, p: T -> bool)
    ensures forall x :: multiset(Filter(s, p))[x] == (if p(x) then multiset(s)[x] else 0)
    decreases |s|
  {
    if |s| > 0 {
      FilterMultiplicity(s[1..], p);
      assert s == [s[0]] + s[1..];
      assert multiset(s) == multiset{s[0]} + multiset(s[1..]);
      if p(s[0]) {
        assert Filter(s, p) == [s[0]] + Filter(s[1..], p);
        assert multiset(Filter(s, p)) == multiset{s[0]} + multiset(Filter(s[1..], p));
      }
    }
  }

  /** A `Set` iterates in insertion order, so the distinct elements come in
      the order of their first occurrences. */
  lemma {:induction false} DedupFirstOccurrenceOrder<T>(s: seq<T>)
    ensures forall i, j :: 0 <= i < j < |Dedup(s)| ==> FirstIndex(s, Dedup(s)[i]) < FirstIndex(s, Dedup(s)[j])
    decreases |s|
  {
    if |s| > 0 {
      var init := s[..|s| - 1];
      var last := s[|s| - 1];
      var rest := Dedup(init);
      DedupFirstOccurrenceOrder(init);
      assert s == init + [last];
      forall x | x in rest ensures FirstIndex(s, x) == FirstIndex(init, x) {
        FirstIndexAppend(init, last, x);
      }
      if last !in rest {
        assert last !in init;
        assert FirstIndex(s, last) == |init|;
        assert Dedup(s) == rest + [last];
      }
    }
  }

  lemma {:induction false} SubseqExtend<T>(a: seq<T>, b: seq<T>, x: T)
    requires IsSubseq(a, b)
    ensures IsSubseq(a, b + [x])
    decreases |b|
  {
    if |a| > 0 && |b| > 0 {
      assert (b + [x])[1..] == b[1..] + [x];
      SubseqExtend(if a[0] == b[0] then a[1..] else a, b[1..], x);
    }
  }

  lemma {:induction false} SubseqAppend<T>(a: seq<T>, b: seq<T>, x: T)
    requires IsSubseq(a, b)
    ensures IsSubseq(a + [x], b + [x])
    decreases |b|
  {
    if |a| == 0 {
      assert a + [x] == [x];
      SubseqSingle(b, x);
    } else {
      assert (a + [x])[0] == a[0] && (a + [x])[1..] == a[1..] + [x];
      assert (b + [x])[0] == b[0] && (b + [x])[1..] == b[1..] + [x];
      if a[0] == b[0] {
        SubseqAppend(a[1..], b[1..], x);
      } else {
        SubseqAppend(a, b[1..], x);
      }
    }
  }

  lemma {:induction false} SubseqSingle<T>(b: seq<T>, x: T)
    ensures IsSubseq([x], b + [x])
    decreases |b|
  {
    if |b| > 0 {
      assert (b + [x])[1..] == b[1..] + [x];
      SubseqSingle(b[1..], x);
    }
  }

  /** Every element of a subsequence occurs in the sequence it was taken from. */
  lemma {:induction false} SubseqMembers<T>(a: seq<T>, b: seq<T>)
    requires IsSubseq(a, b)
    ensures forall i :: 0 <= i < |a| ==> a[i] in b
    decreases |b|
  {
    if |a| > 0 && |b| > 0 {
      if a[0] == b[0] {
        SubseqMembers(a[1..], b[1..]);
        assert a == [a[0]] + a[1..];
      } else {
        SubseqMembers(a, b[1..]);
      }
    }
  }

  /** Filtering with two predicates that agree on the elements gives the same result. */
  lemma {:induction false} FilterAgree<T>(s: seq<T>, p: T -> bool, q: T -> bool)
    requires forall i :: 0 <= i < |s| ==> p(s[i]) == q(s[i])
    ensures Filter(s, p) == Filter(s, q)
    decreases |s|
  {
    if |s| > 0 {
      FilterAgree(s[1..], p, q);
    }
  }

  /** When at most one element satisfies `p`, the filter keeps at most one. */
  lemma {:induction false} FilterAtMostOne<T>(s: seq<T>, p: T -> bool)
    requires forall i, j :: 0 <= i < j < |s| && p(s[i]) ==> !p(s[j])
    ensures |Filter(s, p)| <= 1
    decreases |s|
  {
    if |s| > 0 {
      FilterAtMostOne(s[1..], p);
      if p(s[0]) {
        assert forall k :: 0 <= k < |s[1..]| ==> !p(s[1..][k]) by {
          forall k | 0 <= k < |s[1..]| ensures !p(s[1..][k]) {
            assert s[1..][k] == s[k + 1];
          }
        }
        assert |Filter(s[1..], p)| == 0;
      }
    }
  }

  /** A sequence without duplicates holds each value at most once. */
  lemma {:induction false} NoDupMultiplicity<T>(s: seq<T>, x: T)
    requires NoDup(s)
    ensures multiset(s)[x] <= 1
    decreases |s|
  {
    if |s| > 0 {
      assert s == [s[0]] + s[1..];
      assert NoDup(s[1..]) by {
        forall i, j | 0 <= i < j < |s[1..]| ensures s[1..][i] != s[1..][j] {
          assert s[1..][i] == s[i + 1] && s[1..][j] == s[j + 1];
        }
      }
      NoDupMultiplicity(s[1..], x);
      if s[0] == x {
        assert x !in s[1..] by {
          forall j | 0 <= j < |s[1..]| ensures s[1..][j] != x {
            assert s[1..][j] == s[j + 1];
          }
        }
      }
    }
  }

  /** Putting a new element in front keeps a list free of duplicates. */
  lemma NoDupCons<T>(x: T, s: seq<T>)
    requires NoDup(s) && x !in s
    ensures NoDup([x] + s)
  {
    var c := [x] + s;
    forall i, j | 0 <= i < j < |c| ensures c[i] != c[j] {
      assert c[j] == s[j - 1];
      if i > 0 {
        assert c[i] == s[i - 1];
      }
    }
  }

  /** A value held at two positions is counted twice. */
  lemma TwiceCounted<T>(s: seq<T>, i: int, j: int)
    requires 0 <= i < j < |s| && s[i] == s[j]
    ensures multiset(s)[s[i]] >= 2
  {
    assert s == s[..i] + [s[i]] + s[i + 1..j] + [s[j]] + s[j + 1..];
  }

  /** Rearranging a sequence without duplicates keeps it without duplicates. */
  lemma NoDupPermutation<T>(a: seq<T>, b: seq<T>)
    requires multiset(a) == multiset(b) && NoDup(b)
    ensures NoDup(a)
  {
    forall i, j | 0 <= i < j < |a| ensures a[i] != a[j] {
      if a[i] == a[j] {
        TwiceCounted(a, i, j);
        NoDupMultiplicity(b, a[i]);
        assert false;
      }
    }
  }
}

=== FILE: sorting.dfy ===
/** `Array.prototype.sort` with a comparator that orders by a string key,
    ascending or descending, and answers 0 on equal keys. The ECMAScript sort
    is stable, so the model is a stable insertion sort. */
module Sorting {
  import opened Text

  /** `x` must be placed before `y`: its key is strictly smaller (ascending)
      or strictly larger (descending). */
  predicate Precedes<T>(key: T -> string, descending: bool, x: T, y: T) {
    if descending then LexLess(key(y), key(x)) else LexLess(key(x), key(y))
  }

  /** No element is placed after one it should precede. */
  predicate SortedBy<T>(key: T -> string, descending: bool, s: seq<T>) {
    forall i, j :: 0 <= i < j < |s| ==> !Precedes(key, descending, s[j], s[i])
  }

  lemma PrecedesAsymmetric<T>(key: T -> string, descending: bool, x: T, y: T)
    requires Precedes(key, descending, x, y)
    ensures !Precedes(key, descending, y, x)
  {
    if descending {
      LexLessAsymmetric(key(y), key(x));
    } else {
      LexLessAsymmetric(key(x), key(y));
    }
  }

  lemma NotPrecedesTransitive<T>(key: T -> string, descending: bool, a: T, b: T, c: T)
    requires !Precedes(key, descending, b, a) && !Precedes(key, descending, c, b)
    ensures !Precedes(key, descending, c, a)
  {
    if descending {
      NotLessTransitive(key(c), key(b), key(a));
    } else {
      NotLessTransitive(key(a), key(b), key(c));
    }
  }

  /** An element that no element of a sorted list should precede can be put
      in front of it. */
  lemma PrependSorted<T>(key: T -> string, descending: bool, a: T, t: seq<T>)
    requires SortedBy(key, descending, t)
    requires forall j :: 0 <= j < |t| ==> !Precedes(key, descending, t[j], a)
    ensures SortedBy(key, descending, [a] + t)
  {
    var r := [a] + t;
    forall i, j | 0 <= i < j < |r| ensures !Precedes(key, descending, r[j], r[i]) {
      assert r[j] == t[j - 1];
      if i > 0 {
        assert r[i] == t[i - 1];
      }
    }
  }

  /** After `x` is inserted behind the head of a sorted list, no element of
      the result should precede that head. */
  lemma FollowHead<T>(key: T -> string, descending: bool, s: seq<T>, x: T, rest: seq<T>)
    requires SortedBy(key, descending, s) && |s| > 0
    requires !Precedes(key, descending, x, s[0])
    requires multiset(rest) == multiset(s[1..]) + multiset{x}
    ensures forall j :: 0 <= j < |rest| ==> !Precedes(key, descending, rest[j], s[0])
  {
    forall j | 0 <= j < |rest| ensures !Precedes(key, descending, rest[j], s[0]) {
      assert rest[j] in multiset(rest);
      if rest[j] != x {
        assert rest[j] in multiset(s[1..]);
        var k :| 0 <= k < |s[1..]| && s[1..][k] == rest[j];
        assert s[k + 1] == rest[j];
      }
    }
  }

  /** An element that need not follow the head of a sorted list need not
      follow any of its elements. */
  lemma LeadAll<T>(key: T -> string, descending: bool, x: T, s: seq<T>)
    requires SortedBy(key, descending, s) && |s| > 0
    requires !Precedes(key, descending, s[0], x)
    ensures forall j :: 0 <= j < |s| ==> !Precedes(key, descending, s[j], x)
  {
    forall j | 0 < j < |s| ensures !Precedes(key, descending, s[j], x) {
      NotPrecedesTransitive(key, descending, x, s[0], s[j]);
    }
  }

  /** Places `x` before the first element it does not follow, so that `x`
      stays in front of every element with an equal key. */
  function Insert<T>(key: T -> string, descending: bool, x: T, s: seq<T>): (r: seq<T>)
    requires SortedBy(key, descending, s)
    ensures SortedBy(key, descending, r)
    ensures multiset(r) == multiset(s) + multiset{x}
  {
    if |s| == 0 then [x]
    else if Precedes(key, descending, s[0], x) then
      var rest := Insert(key, descending, x, s[1..]);
      assert s == [s[0]] + s[1..];
      PrecedesAsymmetric(key, descending, s[0], x);
      FollowHead(key, descending, s, x, rest);
      PrependSorted(key, descending, s[0], rest);
      [s[0]] + rest
    else
      LeadAll(key, descending, x, s);
      PrependSorted(key, descending, x, s);
      [x] + s
  }

  /** The stable sort: the first element is inserted into the sorted rest. */
  function SortBy<T>(key: T -> string, descending: bool, s: seq<T>): (r: seq<T>)
    ensures SortedBy(key, descending, r)
    ensures multiset(r) == multiset(s)
    ensures |r| == |s|
  {
    if |s| == 0 then []
    else
      assert s == [s[0]] + s[1..];
      Insert(key, descending, s[0], SortBy(key, descending, s[1..]))
  }

  /** The elements of `s` whose key is `k`, in their order in `s`. */
  function WithKey<T>(key: T -> string, k: string, s: seq<T>): seq<T> {
    if |s| == 0 then []
    else (if key(s[0]) == k then [s[0]] else []) + WithKey(key, k, s[1..])
  }

  lemma WithKeyCons<T>(key: T -> string, k: string, a: T, t: seq<T>)
    ensures WithKey(key, k, [a] + t) == (if key(a) == k then [a] else []) + WithKey(key, k, t)
  {
    assert ([a] + t)[0] == a && ([a] + t)[1..] == t;
  }

  lemma SortedTail<T>(key: T -> string, descending: bool, s: seq<T>)
    requires SortedBy(key, descending, s) && |s| > 0
    ensures SortedBy(key, descending, s[1..])
  {
  }

  /** One step of `Insert` behind the head of the list. */
  lemma InsertBehind<T>(key: T -> string, descending: bool, x: T, s: seq<T>)
    requires SortedBy(key, descending, s) && |s| > 0 && Precedes(key, descending, s[0], x)
    ensures SortedBy(key, descending, s[1..])
    ensures Insert(key, descending, x, s) == [s[0]] + Insert(key, descending, x, s[1..])
  {
  }

  /** Selecting by key distributes over concatenation when at most one of two
      single elements is selected. */
  lemma WithKeySwap<T>(key: T -> string, k: string, a: T, x: T, t: seq<T>, u: seq<T>)
    requires key(a) != k || key(x) != k
    requires WithKey(key, k, u) == (if key(x) == k then [x] else []) + WithKey(key, k, t)
    ensures WithKey(key, k, [a] + u) == (if key(x) == k then [x] else []) + WithKey(key, k, [a] + t)
  {
    WithKeyCons(key, k, a, u);
    WithKeyCons(key, k, a, t);
  }

  lemma {:induction false} InsertWithKey<T>(key: T -> string, descending: bool, x: T, s: seq<T>, k: string)
    requires SortedBy(key, descending, s)
    ensures WithKey(key, k, Insert(key, descending, x, s))
         == (if key(x) == k then [x] else []) + WithKey(key, k, s)
    decreases |s|
  {
    if |s| == 0 {
      WithKeyCons(key, k, x, s);
    } else if Precedes(key, descending, s[0], x) {
      if key(s[0]) == k && key(x) == k {
        LexLessIrreflexive(k);
        assert false;
      }
      InsertBehind(key, descending, x, s);
      InsertWithKey(key, descending, x, s[1..], k);
      WithKeySwap(key, k, s[0], x, s[1..], Insert(key, descending, x, s[1..]));
      assert [s[0]] + s[1..] == s;
    } else {
      assert Insert(key, descending, x, s) == [x] + s;
      WithKeyCons(key, k, x, s);
    }
  }

  /** Stability: sorting keeps the relative order of elements with equal keys. */
  lemma {:induction false} SortStable<T>(key: T -> string, descending: bool, s: seq<T>, k: string)
    ensures WithKey(key, k, SortBy(key, descending, s)) == WithKey(key, k, s)
    decreases |s|
  {
    if |s| > 0 {
      SortStable(key, descending, s[1..], k);
      InsertWithKey(key, descending, s[0], SortBy(key, descending, s[1..]), k);
    }
  }
}

=== FILE: text.dfy ===
/** The JavaScript string operations the system relies on: `toLowerCase`, `trim`,
    `includes` and the relational `<` on strings. */
module Text {

  predicate IsUpper(c: char) {
    'A' <= c <= 'Z'
  }

  /** `toLowerCase` on one character; only the ASCII letters are mapped. */
  function LowerChar(c: char): (r: char)
    ensures !IsUpper(r)
    ensures !IsUpper(c) ==> r == c
  {
    if IsUpper(c) then (c as int + 32) as char else c
  }

  function Lower(s: string): (r: string)
    ensures |r| == |s|
    ensures forall i {:trigger r[i]} :: 0 <= i < |s| ==> r[i] == LowerChar(s[i])
  {
    seq(|s|, i requires 0 <= i < |s| => LowerChar(s[i]))
  }

  lemma LowerIdempotent(s: string)
    ensures Lower(Lower(s)) == Lower(s)
  {
  }

  /** The characters `String.prototype.trim` strips: the ECMAScript WhiteSpace
      and LineTerminator code points. */
  predicate IsJsSpace(c: char) {
    || c == ' ' || c == '\t' || c == '\n' || c == '\r'
    || c == '\U{000B}' || c == '\U{000C}' || c == '\U{00A0}' || c == '\U{FEFF}'
    || c == '\U{1680}' || ('\U{2000}' <= c <= '\U{200A}')
    || c == '\U{2028}' || c == '\U{2029}' || c == '\U{202F}' || c == '\U{205F}'
    || c == '\U{3000}'
  }

  lemma LowerCharKeepsSpace(c: char)
    ensures IsJsSpace(LowerChar(c)) <==> IsJsSpace(c)
  {
  }

  /** `s` without its leading white space. */
  function TrimStart(s: string): (r: string)
    ensures |r| <= |s|
    ensures |r| > 0 ==> !IsJsSpace(r[0])
  {
    if |s| > 0 && IsJsSpace(s[0]) then TrimStart(s[1..]) else s
  }

  /** `s` without its trailing white space. */
  function TrimEnd(s: string): (r: string)
    ensures |r| <= |s|
    ensures |r| > 0 ==> r[0] == s[0] && !IsJsSpace(r[|r| - 1])
  {
    if |s| > 0 && IsJsSpace(s[|s| - 1]) then TrimEnd(s[..|s| - 1]) else s
  }

  /** `String.prototype.trim`. */
  function Trim(s: string): (r: string)
    ensures |r| <= |s|
    ensures |r| > 0 ==> !IsJsSpace(r[0]) && !IsJsSpace(r[|r| - 1])
  {
    TrimEnd(TrimStart(s))
  }

  /** A string that neither starts nor ends with white space is its own trim. */
  lemma TrimOfTrimmed(s: string)
    requires |s| > 0 ==> !IsJsSpace(s[0]) && !IsJsSpace(s[|s| - 1])
    ensures Trim(s) == s
  {
  }

  lemma TrimIdempotent(s: string)
    ensures Trim(Trim(s)) == Trim(s)
  {
    TrimOfTrimmed(Trim(s));
  }

  lemma TrimLeadingSpace(c: char, s: string)
    requires IsJsSpace(c)
    ensures Trim([c] + s) == Trim(s)
  {
    assert ([c] + s)[1..] == s;
  }

  /** A trailing white-space character survives `TrimStart` unless the whole
      string is white space. */
  lemma {:induction false} TrimStartAppend(s: string, c: char)
    requires IsJsSpace(c)
    ensures TrimStart(s + [c]) == if TrimStart(s) == [] then [] else TrimStart(s) + [c]
  {
    if |s| > 0 && IsJsSpace(s[0]) {
      assert (s + [c])[1..] == s[1..] + [c];
      TrimStartAppend(s[1..], c);
    } else if |s| == 0 {
      assert ([] + [c])[1..] == [];
    }
  }

  lemma TrimTrailingSpace(s: string, c: char)
    requires IsJsSpace(c)
    ensures Trim(s + [c]) == Trim(s)
  {
    TrimStartAppend(s, c);
    var t := TrimStart(s);
    if t != [] {
      assert (t + [c])[..|t + [c]| - 1] == t;
    }
  }

  /** Lower-casing and trimming commute, since lower-casing never turns a
      character into white space or back. */
  lemma LowerTrimCommute(s: string)
    ensures Lower(Trim(s)) == Trim(Lower(s))
  {
    LowerTrimStart(s);
    LowerTrimEnd(TrimStart(s));
  }

  lemma {:induction false} LowerTrimStart(s: string)
    ensures Lower(TrimStart(s)) == TrimStart(Lower(s))
  {
    if |s| > 0 {
      LowerCharKeepsSpace(s[0]);
      assert Lower(s)[1..] == Lower(s[1..]);
      LowerTrimStart(s[1..]);
    }
  }

  lemma {:induction false} LowerTrimEnd(s: string)
    ensures Lower(TrimEnd(s)) == TrimEnd(Lower(s))
  {
    if |s| > 0 {
      LowerCharKeepsSpace(s[|s| - 1]);
      assert Lower(s)[..|s| - 1] == Lower(s[..|s| - 1]);
      LowerTrimEnd(s[..|s| - 1]);
    }
  }

  /** `needle` occurs in `hay` starting at position `i`. */
  predicate OccursAt(hay: string, needle: string, i: int) {
    0 <= i && i + |needle| <= |hay| && hay[i..i + |needle|] == needle
  }

  /** `String.prototype.includes`. */
  function Contains(hay: string, needle: string): (r: bool)
    ensures r <==> exists i :: OccursAt(hay, needle, i)
    decreases |hay|
  {
    if needle <= hay then
      assert OccursAt(hay, needle, 0);
      true
    else if |hay| == 0 then
      false
    else
      var r := Contains(hay[1..], needle);
      assert r ==> exists i :: OccursAt(hay, needle, i) by {
        if r {
          var i :| OccursAt(hay[1..], needle, i);
          assert hay[1..][i..i + |needle|] == hay[i + 1..i + 1 + |needle|];
          assert OccursAt(hay, needle, i + 1);
        }
      }
      assert (exists i :: OccursAt(hay, needle, i)) ==> r by {
        if exists i :: OccursAt(hay, needle, i) {
          var i :| OccursAt(hay, needle, i);
          assert i != 0;
          assert hay[1..][i - 1..i - 1 + |needle|] == hay[i..i + |needle|];
          assert OccursAt(hay[1..], needle, i - 1);
        }
      }
      r
  }

  /** JavaScript's `a < b` on strings: lexicographic order on characters
      (a proper prefix comes first). */
  predicate LexLess(a: string, b: string)
    decreases |a|
  {
    if |a| == 0 then |b| > 0
    else if |b| == 0 then false
    else if a[0] != b[0] then a[0] < b[0]
    else LexLess(a[1..], b[1..])
  }

  lemma {:induction false} LexLessIrreflexive(a: string)
    ensures !LexLess(a, a)
    decreases |a|
  {
    if |a| > 0 {
      LexLessIrreflexive(a[1..]);
    }
  }

  lemma {:induction false} LexLessTransitive(a: string, b: string, c: string)
    requires LexLess(a, b) && LexLess(b, c)
    ensures LexLess(a, c)
    decreases |a|
  {
    if |a| > 0 && a[0] == b[0] && b[0] == c[0] {
      LexLessTransitive(a[1..], b[1..], c[1..]);
    }
  }

  lemma {:induction false} LexLessTotal(a: string, b: string)
    ensures a == b || LexLess(a, b) || LexLess(b, a)
    decreases |a|
  {
    if |a| > 0 && |b| > 0 && a[0] == b[0] {
      LexLessTotal(a[1..], b[1..]);
      if a[1..] == b[1..] {
        assert a == [a[0]] + a[1..] && b == [b[0]] + b[1..];
      }
    }
  }

  lemma LexLessAsymmetric(a: string, b: string)
    requires LexLess(a, b)
    ensures !LexLess(b, a)
  {
    if LexLess(b, a) {
      LexLessTransitive(a, b, a);
      LexLessIrreflexive(a);
    }
  }

  /** "Not less than" is transitive: the order is total. */
  lemma NotLessTransitive(a: string, b: string, c: string)
    requires !LexLess(b, a) && !LexLess(c, b)
    ensures !LexLess(c, a)
  {
    LexLessTotal(a, b);
    if LexLess(c, a) && LexLess(a, b) {
      LexLessTransitive(c, a, b);
    }
  }
}

=== FILE: user_schema.dfy ===
/** The User document (Models/user.js): e-mail normalisation, the role enum,
    the department required of Staff, and the four authentication fields that
    start out null. */
module UserSchema {
  import opened Results
  import opened Text

  datatype Role = Staff | HR

  function RoleName(r: Role): string {
    match r
    case Staff => "Staff"
    case HR => "HR"
  }

  function ParseRole(s: string): (r: Option<Role>)
    ensures r.Some? ==> RoleName(r.value) == s
    ensures r.None? ==> forall x: Role :: RoleName(x) != s
  {
    if s == "Staff" then Some(Staff)
    else if s == "HR" then Some(HR)
    else None
  }

  /** One user: at most one pending magic link and at most one session, since
      each is a single pair of fields. Expiry instants are in milliseconds. */
  datatype User = User(
    email: string,
    role: Role,
    department: Option<string>,
    magicLinkToken: Option<string>,
    magicLinkTokenExpires: Option<int>,
    sessionToken: Option<string>,
    sessionExpires: Option<int>)

  /** The `lowercase` and `trim` setters of the e-mail path. */
  function NormalizeEmail(s: string): (r: string)
    ensures |r| <= |s|
    ensures forall k :: 0 <= k < |r| ==> !IsUpper(r[k])
    ensures |r| > 0 ==> !IsJsSpace(r[0]) && !IsJsSpace(r[|r| - 1])
  {
    LowerTrimCommute(s);
    Trim(Lower(s))
  }

  /** A stored e-mail is already normal: normalising it again changes nothing. */
  lemma NormalizeEmailIdempotent(s: string)
    ensures NormalizeEmail(NormalizeEmail(s)) == NormalizeEmail(s)
  {
    var l := Lower(s);
    LowerTrimCommute(l);
    LowerIdempotent(s);
    TrimIdempotent(l);
  }

  /** An e-mail with no upper-case letter and no white space at either end is
      stored as sent: normalising keeps every character. */
  lemma NormalizeEmailKeepsNormal(s: string)
    requires forall k :: 0 <= k < |s| ==> !IsUpper(s[k])
    requires |s| > 0 ==> !IsJsSpace(s[0]) && !IsJsSpace(s[|s| - 1])
    ensures NormalizeEmail(s) == s
  {
    assert Lower(s) == s;
    TrimOfTrimmed(s);
  }

  /** E-mails that differ only in letter case denote the same user. */
  lemma NormalizeEmailIgnoresCase(s: string)
    ensures NormalizeEmail(Lower(s)) == NormalizeEmail(s)
  {
    LowerIdempotent(s);
  }

  /** E-mails that differ only in a leading white-space character denote the same user. */
  lemma NormalizeEmailIgnoresLeadingSpace(c: char, s: string)
    requires IsJsSpace(c)
    ensures NormalizeEmail([c] + s) == NormalizeEmail(s)
  {
    LowerCharKeepsSpace(c);
    var l := Lower(s);
    assert Lower([c] + s) == [LowerChar(c)] + l by {
      assert forall k :: 1 <= k < |s| + 1 ==> ([c] + s)[k] == s[k - 1];
    }
    TrimLeadingSpace(LowerChar(c), l);
  }

  /** E-mails that differ only in a trailing white-space character denote the same user. */
  lemma NormalizeEmailIgnoresTrailingSpace(s: string, c: char)
    requires IsJsSpace(c)
    ensures NormalizeEmail(s + [c]) == NormalizeEmail(s)
  {
    LowerCharKeepsSpace(c);
    var l := Lower(s);
    assert Lower(s + [c]) == l + [LowerChar(c)];
    TrimTrailingSpace(l, LowerChar(c));
  }

  /** A document the schema accepts. */
  predicate ValidUser(u: User) {
    && u.email != ""
    && NormalizeEmail(u.email) == u.email
    && (u.role == Staff ==> Truthy(u.department))
  }

  /** One path that fails validation, one per path as Mongoose reports them. */
  datatype UserViolation = EmailRequired | RoleRequired | RoleNotInEnum | DepartmentRequired

  /** `new User({email, role, department})` and its validation. The department
      is required exactly when the role is Staff and otherwise defaults to null;
      the authentication fields default to null. */
  function NewUser(email: Option<string>, role: Option<string>, department: Option<string>)
    : (r: Result<User, seq<UserViolation>>)
    ensures r.Ok? <==> && email.Some? && NormalizeEmail(email.value) != ""
                       && role.Some? && ParseRole(role.value).Some?
                       && (role.value == "Staff" ==> Truthy(department))
    ensures r.Ok? ==> && ValidUser(r.value)
                      && r.value.email == NormalizeEmail(email.value)
                      && RoleName(r.value.role) == role.value
                      && r.value.department == department
                      && r.value.magicLinkToken.None? && r.value.magicLinkTokenExpires.None?
                      && r.value.sessionToken.None? && r.value.sessionExpires.None?
    ensures r.Err? ==> (DepartmentRequired in r.error <==> role == Some("Staff") && !Truthy(department))
  {
    var normal := if email.Some? then NormalizeEmail(email.value) else "";
    var errors :=
      (if normal == "" then [EmailRequired] else [])
      + (if !Truthy(role) then [RoleRequired]
         else if ParseRole(role.value).None? then [RoleNotInEnum] else [])
      + (if role == Some("Staff") && !Truthy(department) then [DepartmentRequired] else []);
    if errors != [] then Err(errors)
    else
      NormalizeEmailIdempotent(email.value);
      Ok(User(normal, ParseRole(role.value).value, department, None, None, None, None))
  }

  /** Distinct users have distinct e-mails (the unique index). */
  predicate UniqueEmails(users: seq<User>) {
    forall i, j :: 0 <= i < j < |users| ==> users[i].email != users[j].email
  }

  datatype InsertError = Invalid(violations: seq<UserViolation>) | DuplicateEmail

  /** Creating a user: validation, then the unique index on the normalised e-mail. */
  function InsertUser(users: seq<User>, email: Option<string>, role: Option<string>, department: Option<string>)
    : (r: Result<seq<User>, InsertError>)
    requires UniqueEmails(users)
    ensures r.Ok? ==> UniqueEmails(r.value) && |r.value| == |users| + 1 && r.value[..|users|] == users
    ensures r.Ok? ==> NewUser(email, role, department).Ok? && r.value[|users|] == NewUser(email, role, department).value
    ensures NewUser(email, role, department).Err? ==> r == Err(Invalid(NewUser(email, role, department).error))
    ensures r.Ok? <==>
              && NewUser(email, role, department).Ok?
              && !exists k :: 0 <= k < |users| && users[k].email == NormalizeEmail(email.value)
    ensures NewUser(email, role, department).Ok? ==>
              (r == Err(DuplicateEmail) <==>
                 exists k :: 0 <= k < |users| && users[k].email == NormalizeEmail(email.value))
  {
    match NewUser(email, role, department)
    case Err(v) => Err(Invalid(v))
    case Ok(u) =>
      if exists k :: 0 <= k < |users| && users[k].email == u.email then Err(DuplicateEmail)
      else Ok(users + [u])
  }

  /** Two registrations whose e-mails differ only in letter case collide. */
  lemma CaseVariantsCollide(users: seq<User>, email: string, role: string, department: Option<string>)
    requires UniqueEmails(users)
    requires InsertUser(users, Some(email), Some(role), department).Ok?
    ensures InsertUser(InsertUser(users, Some(email), Some(role), department).value,
                       Some(Lower(email)), Some(role), department) == Err(DuplicateEmail)
  {
    var after := InsertUser(users, Some(email), Some(role), department).value;
    NormalizeEmailIgnoresCase(email);
    assert after[|users|].email == NormalizeEmail(Lower(email));
  }
}
